=== FILE: README.md ===
# k-means and k-means++ on points of the plane

The repository holds two small scripts that cluster a fixed table of 2-D
points. `k-means.py` picks K initial centroids uniformly at random from the
point values. `k-means++.py` starts from one given point and adds each
further centroid by a roulette-wheel draw. Each point weighs its Euclidean
distance to the nearest centroid chosen so far. Both scripts then run the
same Lloyd loop until the centroids stop moving:

- attach every point to the value of its nearest centroid (a point equal to a
  centroid takes its own value at once; ties go to the first centroid in list
  order);
- replace every centroid by the mean of the points attached to it;
- stop when the summed distance between old and new centroids is zero.

The Dafny model has one module per concern:

| module | file | contents |
|---|---|---|
| `Outcomes` | outcomes.dfy | `Option`, `Result` and the three ways a run can fail |
| `Geometry` | geometry.dfy | points, squared distance, the Euclidean distance as a constrained parameter, sums and means |
| `Assignment` | assignment.dfy | nearest-centroid assignment, groups, and what each centroid position collects |
| `Lloyd` | lloyd.dfy | the update phase, the convergence test, the fuel-bounded loop and its trajectory |
| `Seeding` | seeding.dfy | uniform sampling, k-means++ weights, the roulette walk, the seeding loop |
| `Relabel` | relabel.dfy | the update loop exactly as written, with its in-place relabelling |
| `KMeans` | kmeans.dfy | the two scripts end to end |
| `Inertia` | inertia.dfy | the within-cluster sum of squares, and why one iteration never increases it |

Coordinates are exact reals. The random generator is replaced by inputs: the
positions `random.sample` picks, and for each k-means++ round a "draw" that
maps the total weight to the value the walk starts from. The unbounded loop
gets a `fuel` bound.

The main update (`Lloyd.Update`) collects every group from the assignment
before any centroid is replaced, and tells centroids apart by position: a
point attached to a value belongs to the first centroid holding that value,
so a second copy of a value collects nothing and its mean divides by zero.
The scripts instead overwrite each group's `centroid` entries with the new
mean as they go. `Relabel` models that loop as written. It proves the two
agree in the first iteration for every centroid list, and in later
iterations whenever no centroid value is listed twice and no new mean equals
a centroid value further down the list. `Relabel.LaterRepeatDiverges` shows
where they part.

The loop is stated once over an arbitrary iteration function (`Lloyd.Loop`)
and related to the trajectory of iterates (`Lloyd.Iterate`): a run succeeds
exactly when the trajectory reaches a fixed point within the fuel, and it
then returns the first one.

## Model

Both scripts share their distance, mean and iteration code. The rows cite
`k-means.py`; the same lines in `k-means++.py` are: `cal_pair_distance`
6-7 as `cal_distance` 6-7, `cal_centroid` 10-17 as 14-21, and the
iteration loop 34-76 as 68-107 (assignment 38-51 as 72-85, update 54-64 as
88-98, convergence test 69-73 as 103-104).

| member | source | states |
|---|---|---|
| Geometry.Dist2Properties | k-means.py:6-7 | the distance is non-negative, symmetric, and zero exactly on equal points |
| Geometry.EuclidOrdersLikeDist2 | k-means.py:46-50 | comparing Euclidean distances gives the same answer as comparing their squares, so the nearest-centroid scan may use the square |
| Geometry.EuclidIsDistanceLike | k-means++.py:6-7 | the Euclidean distance is non-negative and zero exactly on equal points |
| Geometry.Mean | k-means.py:10-17 | the mean times the group size is the coordinate-wise total of the group |
| Geometry.MeanWithinBounds | k-means.py:10-17 | each coordinate of a mean lies between the smallest and largest coordinate of the group |
| Geometry.MeanOfCopies | k-means.py:10-17 | the mean of copies of one point is that point |
| Geometry.SumZeroIffAllZero | k-means.py:69-73 | a sum of non-negative terms is zero exactly when every term is zero |
| Assignment.Nearest | k-means.py:44-50 | the scan returns a centroid no farther than any other, and strictly nearer than every centroid before it (first of equals wins) |
| Assignment.AssignOne | k-means.py:38-51 | a point is attached exactly when there is a centroid, and always to a closest centroid value |
| Assignment.ShortcutAgreesWithScan | k-means.py:40-50 | for a point equal to a centroid the shortcut gives the value the full scan gives, at distance zero |
| Assignment.Assign | k-means.py:38-51 | every point gets a closest centroid value; a point equal to a centroid gets its own value |
| Assignment.AssignIsNearest | k-means.py:38-51 | every assignment equals the value at the position the nearest-centroid scan picks |
| Assignment.Members | k-means.py:57-58 | the positions attached to a value, each exactly once, in increasing order |
| Assignment.GroupIsAttachedPoints | k-means.py:56-59 | every point attached to a value is in its group, every entry of the group is a point attached to it, and the group has one entry per attached position |
| Assignment.DistinctOwnGroups | k-means.py:55-59 | with no centroid value listed twice, the points a centroid collects are exactly the points attached to its value |
| Assignment.OwnGroupIsNearestPosition | k-means.py:44-59 | a point is collected by the centroid at a position exactly when the nearest-centroid scan returns that position for it |
| Assignment.GroupsPartition | k-means.py:55-59 | with distinct centroids every point is in the group of exactly one centroid, and that centroid is closest to it |
| Assignment.SeededGroupNonEmpty | k-means.py:40-42 | a centroid equal to some point has a non-empty group |
| Lloyd.UpdateSpecUnique | k-means.py:54-61 | the update's contract (one mean per centroid of the points it collects, or the first centroid collecting none) leaves no choice of result |
| Lloyd.Update | k-means.py:54-61 | on success each new centroid is the mean of the non-empty group its position collects; otherwise the error names the first centroid that collects nothing |
| Lloyd.Step | k-means.py:38-61 | an iteration fails exactly when some centroid collects no point, and otherwise yields, position by position, the mean of what each centroid collects |
| Lloyd.StepNeedsDistinct | k-means.py:54-61 | an iteration over a list that holds a centroid value twice cannot succeed |
| Lloyd.Movement | k-means.py:69-73 | the convergence sum is non-negative and zero exactly when no centroid moved |
| Lloyd.EuclidMovementZeroIff | k-means.py:69-73 | the sum of Euclidean movements the scripts compute is non-negative and zero exactly when the squared movement sum is, so the two convergence tests agree |
| Lloyd.Loop | k-means.py:35-76 | a success is a fixed point of the iteration function, reached in an iteration that the fuel allowed |
| Lloyd.LoopStopsAtFirstFixedPoint | k-means.py:35-76 | the loop succeeds exactly when the trajectory of iterates reaches a fixed point within the fuel, and then returns the first one, in the iteration that reached it |
| Lloyd.LoopReturnsFirstFixedPoint | k-means.py:35-76 | a success after `t` iterations means `t` is within the fuel, the iterate after `t` steps is the returned centroids, and no earlier iterate is fixed |
| Lloyd.LoopFailure | k-means.py:35-76 | a failure is either running out of fuel or the error of an iteration that the trajectory reached within the fuel |
| Lloyd.LoopReportsFailure | k-means.py:35-76 | conversely, an iteration that fails within the fuel, with no fixed point before it, is the failure the loop reports |
| Lloyd.LoopReportsFirstFailure | k-means.py:35-76 | the same, for every failing iteration of the trajectory at once |
| Lloyd.LoopFailsInAnIteration | k-means.py:35-76 | if every failing iteration reports an empty group in its own iteration, the loop's failure is such a report from an iteration within the fuel, or running out of fuel |
| Lloyd.Run | k-means.py:34-76 | a success is a fixed point reached within the fuel, with distinct centroids each the mean of its group; a failure is running out of fuel or the empty group of an iteration that the trajectory reached within the fuel; and the first iteration of the trajectory that fails within the fuel, before any fixed point, is the failure reported, as the division by zero at line 60 ends the script there |
| Lloyd.RunReportsFailure | k-means.py:34-76 | a run reports the empty group of an iteration that fails within the fuel with no fixed point before it |
| Lloyd.RunSucceedsIffFixedPointReached | k-means.py:34-76 | the k-means loop converges exactly when the trajectory of iterations from the start centroids reaches a fixed point within the fuel |
| Lloyd.RunStopsAtFirstFixedPoint | k-means.py:34-76 | a converged run returns the first fixed point of the trajectory, in the iteration that reached it |
| Lloyd.RunFromFixedPoint | k-means.py:69-73 | from centroids that an iteration leaves unchanged the loop stops in that same iteration |
| Lloyd.StepIterationIrrelevant | k-means.py:35-76 | the iteration counter does not change what an iteration computes |
| Lloyd.SeededStepSucceeds | k-means.py:40-61 | when every centroid is a point value, as after either seeding, an iteration succeeds exactly when no centroid value is listed twice |
| Lloyd.SeededRunFailsAtOnceIffRepeated | k-means.py:34-61 | from centroids that are point values, the loop fails in iteration 0 exactly when it runs and a centroid value is listed twice |
| Lloyd.CentroidIsOwnMean | k-means.py:54-61 | when every point is a centroid, each centroid collects only copies of itself, so a successful iteration gives it back unchanged |
| Lloyd.EveryPointACentroid | k-means.py:40-61 | when the centroids are exactly the point values, each listed once, an iteration returns them unchanged |
| Seeding.UniformSeed | k-means.py:31 | K distinct positions give K centroids, each a point value; a K below zero or above the number of points is refused |
| Seeding.FullSampleCoversAll | k-means.py:31 | a sample of as many positions as there are points picks every position |
| Seeding.RouletteWalk | k-means++.py:57-63 | the walk stops at the first position whose running weight reaches the start value; with non-negative weights and a start value no larger than the total it always stops; a start value of zero or below stops at position 0 |
| Seeding.ReachedWeightPositive | k-means++.py:58-60 | a walk started above zero never stops on a weightless position |
| Seeding.Distances | k-means++.py:10-11 | one distance per centroid; `Seeding.WeightIsNearestDistance` states what the weights built from them are |
| Seeding.ScanMin | k-means++.py:47-50 | the scan's result is one of the distances and no larger than any of them |
| Seeding.MinWeights | k-means++.py:40-51 | one weight per point; `Seeding.WeightIsNearestDistance` and `Seeding.MinWeightsProperties` state what each weight is |
| Seeding.WeightIsNearestDistance | k-means++.py:40-51 | a point's weight is its distance to its nearest chosen centroid |
| Seeding.MinWeightsProperties | k-means++.py:40-51 | weights are non-negative, and a weight is zero exactly when the point is already a centroid |
| Seeding.TotalPositiveIffNotAllChosen | k-means++.py:57 | the total weight is positive exactly when some point is not yet a centroid |
| Seeding.ScaledIsValid | k-means++.py:57 | the total times a generator value in [0, 1) starts the walk within [0, total], below a positive total |
| Seeding.DrawNext | k-means++.py:40-64 | each round picks a point value: the one where the walk from the draw over the minimum-distance weights stops |
| Seeding.DrawnIsFresh | k-means++.py:57-64 | a positive draw picks a point that is not yet a centroid whenever such a point exists |
| Seeding.DrawnWhenAllChosen | k-means++.py:57-64 | once every point is a centroid the round picks the first point again |
| Seeding.SeedPlusPlus | k-means++.py:36-64 | seeding yields the start point followed by one drawn point per round of `range(K - 1)` |
| Seeding.SeedRound | k-means++.py:39-64 | one round extends the centroids by the point drawn from them, keeping all earlier ones |
| Seeding.SeedsFreshWhilePossible | k-means++.py:39-64 | every seeded centroid after the first whose draw is positive is new while some point is unchosen, and once every point is chosen a seed is the first point |
| Relabel.Initial | k-means.py:41-58 | the entries the assignment wrote compare equal to exactly the values assigned, in every iteration |
| Relabel.RelabelEmptiesGroup | k-means.py:57-64 | in the first iteration, once a group's entries are overwritten with its mean (a list), no entry compares equal to the centroid (a tuple) any more, so the value's group is empty |
| Relabel.UpdateAsWritten | k-means.py:54-64 | the update loop as written gives one new centroid per old one, keeping the means already computed, or reports an empty group in this iteration at a position not yet handled |
| Relabel.StepAsWritten | k-means.py:38-64 | one iteration as written gives one new centroid per old one, or reports an empty group of this iteration |
| Relabel.AsWrittenMeetsSpec | k-means.py:54-64 | the update as written meets the contract of `Lloyd.Update` in the first iteration, and in later ones when no mean is captured by a later centroid |
| Relabel.StepAgrees | k-means.py:38-64 | an iteration as written computes what `Lloyd.Step` computes, in the first iteration for every centroid list, later when no value repeats and no new mean equals a later centroid value |
| Relabel.FirstIterationAgrees | k-means.py:38-64 | the first iteration as written always equals `Lloyd.Step` |
| Relabel.RelabelKeepsOtherGroups | k-means.py:62-64 | relabelling one group leaves another value's group alone, unless (after the first iteration) the new mean is that value |
| Relabel.GroupDependsOnMatches | k-means.py:57-59 | a group depends only on which `centroid` entries compare equal to the centroid value |
| Relabel.LaterRepeatDiverges | k-means.py:54-64 | after the first iteration, a value listed twice whose mean stays put keeps its group as written, while the model finds the second copy empty |
| Inertia.NearestIsCheapest | k-means.py:44-51 | attaching every point to its nearest centroid costs no more squared distance in total than any other attachment to the same centroids |
| Inertia.MeanMinimisesSpread | k-means.py:10-17 | the summed squared distance of a group to its mean is no larger than to any other point |
| Inertia.CostByGroups | k-means.py:55-59 | summing the cost point by point equals summing it group by group, each group around its own target |
| Inertia.MeansDoNotIncreaseInertia | k-means.py:54-61 | replacing distinct centroids by the means of their non-empty groups does not increase the within-cluster sum of squares |
| Inertia.StepDoesNotIncreaseInertia | k-means.py:38-61 | a successful iteration never increases the within-cluster sum of squares |
| KMeans.KMeansRun | k-means.py:28-76 | k-means refuses a bad sample size; otherwise it converges exactly when the trajectory from the sampled centroids reaches a fixed point within the fuel, fails in iteration 0 exactly when two sampled positions hold the same value, and otherwise reports the empty group of the first failing iteration within the fuel or runs out of fuel; a failure is always one of these two |
| KMeans.SampleDistinctIff | k-means.py:31 | the sampled centroids are distinct exactly when no two sampled positions hold the same point value |
| KMeans.KMeansRunStopsAtFirstFixedPoint | k-means.py:28-76 | a converged k-means run returns the first fixed point of the trajectory from the sampled centroids |
| KMeans.AllPointsConvergeAtOnce | k-means.py:28-76 | with K equal to the number of points, distinct point values converge in iteration 0 with every point a centroid attached to its own value, and a repeated value fails in iteration 0 |
| KMeans.KMeansPlusPlus | k-means++.py:32-107 | k-means++ returns its seeds (the start point, then one drawn point per round) and the k-means loop run from them: a fixed point of `max(K, 1)` centroids within the fuel, an empty group (in iteration 0 exactly when a seed repeats), or running out of fuel |
| KMeans.GeneratorDraws | k-means++.py:57 | scaling the total weight by generator values in [0, 1) gives valid draws, and positive ones for positive values |

## Left out

- Printing and pretty-printing of the points are not modelled.
- The hard-coded point table, `K = 3` and the start point `d` become parameters.
- The `random` module is replaced by inputs. The sample is a list of distinct positions, and each round's draw is a function of the total weight. The uniform distribution and the concrete run after `random.seed(0)` are not modelled.
- Floating point is not modelled: coordinates, means and weights are exact reals. The walk falling off the end of the weights through rounding therefore cannot happen.
- The square root is not computed. The assignment and the convergence test use the squared distance, which is justified by `Geometry.EuclidOrdersLikeDist2` for the scan and by `Lloyd.EuclidMovementZeroIff` for the convergence test. The k-means++ weights take the distance as a parameter constrained by `Geometry.IsEuclid`.
- The unbounded `while True` loop is bounded by fuel. One iteration never increases the within-cluster sum of squares (`Inertia.StepDoesNotIncreaseInertia`), but termination itself is not proved: it needs the finiteness of the possible partitions and a strict decrease whenever the centroids move, which the fuel bound makes unnecessary.
- Lloyd.Run: the loop uses `Lloyd.Step`, which identifies centroids by position, not the relabelling loop as written. The two are proved equal in the first iteration, and in later iterations when no value repeats and no new mean equals a later centroid value (`Relabel.StepAgrees`). That this holds along every run from distinct centroids follows from a convexity argument that is not proved. A group lies on its centroid's side of the bisector with any other centroid, so its mean lies no farther from its own centroid than from any other, and can equal a later centroid only if the two coincide. A later centroid's group lies strictly on that centroid's side, because ties go to the earlier centroid, so two groups' means differ and no value repeats in the next iteration. Outside it they differ (`Relabel.LaterRepeatDiverges`).
- From the second iteration on, the centroids are lists and the point values tuples, so the shortcut `pt_value in centroids` never fires. `Assignment.ShortcutAgreesWithScan` shows that the scan gives the same value, so the model always takes the shortcut.
- Determinism (same inputs give the same clustering) holds trivially for pure functions and is not stated separately.
- K = 0 is not an error in `k-means.py`: `random.sample` returns no centroids, and the loop then converges at once. A negative K is refused there, as `random.sample` raises ValueError (`Seeding.UniformSeed`). `k-means++.py` seeds one centroid for any K of 1 or less, negative K included. The model follows the code.
- A zero total weight in k-means++ seeding is not an error in the code. The walk starts at zero and picks the first point. The model follows the code (`Seeding.DrawnWhenAllChosen`).

=== FILE: assignment.dfy ===
/** The assignment phase of one Lloyd iteration: every point is attached to
    the value of its nearest centroid, and the points attached to one centroid
    value form its group.  Both scripts share this code verbatim. */
module Assignment {
  import opened Geometry
  import opened Outcomes

  /** `c` is one of the centroids and no centroid is closer to `p`. */
  ghost predicate Closest(p: Point, cs: seq<Point>, c: Point)
  {
    c in cs && forall j :: 0 <= j < |cs| ==> Dist2(p, c) <= Dist2(p, cs[j])
  }

  /** Position of the nearest centroid, found by scanning the centroids in list
      order and replacing the best so far only on a strictly smaller distance,
      so the first of several equally near centroids wins. */
  function Nearest(p: Point, cs: seq<Point>): (i: nat)
    requires |cs| > 0
    ensures i < |cs|
    ensures forall j :: 0 <= j < |cs| ==> Dist2(p, cs[i]) <= Dist2(p, cs[j])
    ensures forall j :: 0 <= j < i ==> Dist2(p, cs[i]) < Dist2(p, cs[j])
  {
    if |cs| == 1 then 0
    else
      var init := cs[..|cs| - 1];
      var best := Nearest(p, init);
      assert init[best] == cs[best];
      assert forall j :: 0 <= j < |init| ==> init[j] == cs[j];
      if Dist2(p, cs[|cs| - 1]) < Dist2(p, cs[best]) then |cs| - 1 else best
  }

  /** The centroid value one point is attached to.  A point equal to some
      centroid takes its own value without scanning; otherwise it takes the
      value of the nearest centroid.  With no centroids at all the scan finds
      nothing and the point is left unattached. */
  function AssignOne(p: Point, cs: seq<Point>): (r: Option<Point>)
    ensures r.Some? <==> |cs| > 0
    ensures r.Some? ==> Closest(p, cs, r.value)
  {
    if p in cs then
      Dist2Properties(p, p);
      assert forall j :: 0 <= j < |cs| ==> Dist2(p, cs[j]) >= 0.0 by {
        forall j | 0 <= j < |cs| {
          Dist2Properties(p, cs[j]);
        }
      }
      Some(p)
    else if |cs| == 0 then None
    else Some(cs[Nearest(p, cs)])
  }

  /** The shortcut for a point equal to a centroid agrees with the general
      scan: the scan also lands on the first centroid equal to the point, at
      distance zero. */
  lemma ShortcutAgreesWithScan(p: Point, cs: seq<Point>, k: nat)
    requires k < |cs| && cs[k] == p
    requires forall j :: 0 <= j < k ==> cs[j] != p
    ensures Nearest(p, cs) == k
    ensures Dist2(p, cs[Nearest(p, cs)]) == 0.0
    ensures AssignOne(p, cs) == Some(cs[Nearest(p, cs)])
  {
    var n := Nearest(p, cs);
    Dist2Properties(p, cs[k]);
    Dist2Properties(p, cs[n]);
    assert cs[n] == p;
  }

  /** Every point's assignment, in the order of the point list. */
  function Assign(points: seq<Point>, cs: seq<Point>): (a: seq<Option<Point>>)
    ensures |a| == |points|
    ensures forall i :: 0 <= i < |points| ==> (a[i].Some? <==> |cs| > 0)
    ensures forall i :: 0 <= i < |points| && a[i].Some? ==> Closest(points[i], cs, a[i].value)
    ensures forall i :: 0 <= i < |points| && points[i] in cs ==> a[i] == Some(points[i])
  {
    seq(|points|, i requires 0 <= i < |points| => AssignOne(points[i], cs))
  }

  /** With at least one centroid, every assignment is what the general
      nearest-centroid scan gives. */
  lemma AssignIsNearest(points: seq<Point>, cs: seq<Point>, i: nat)
    requires |cs| > 0 && i < |points|
    ensures Assign(points, cs)[i] == Some(cs[Nearest(points[i], cs)])
  {
    var p := points[i];
    if p in cs {
      var k :| 0 <= k < |cs| && cs[k] == p;
      FirstOccurrence(cs, p, k);
      var f :| 0 <= f <= k && cs[f] == p && forall j :: 0 <= j < f ==> cs[j] != p;
      ShortcutAgreesWithScan(p, cs, f);
    }
  }

  /** Walking down from any occurrence reaches the first one. */
  lemma FirstOccurrence(cs: seq<Point>, p: Point, k: nat)
    requires k < |cs| && cs[k] == p
    ensures exists f :: 0 <= f <= k && cs[f] == p && forall j :: 0 <= j < f ==> cs[j] != p
  {
    if exists j :: 0 <= j < k && cs[j] == p {
      var j :| 0 <= j < k && cs[j] == p;
      FirstOccurrence(cs, p, j);
    }
  }

  /** Positions, in increasing order, of the points attached to value `c`. */
  function Members(a: seq<Option<Point>>, c: Point): (m: seq<nat>)
    ensures forall k :: 0 <= k < |m| ==> m[k] < |a| && a[m[k]] == Some(c)
    ensures forall i :: 0 <= i < |a| && a[i] == Some(c) ==> i in m
    ensures forall k, l :: 0 <= k < l < |m| ==> m[k] < m[l]
  {
    if |a| == 0 then []
    else
      var init := a[..|a| - 1];
      var m := Members(init, c);
      assert forall i :: 0 <= i < |init| ==> init[i] == a[i];
      if a[|a| - 1] == Some(c) then m + [|a| - 1] else m
  }

  /** The points attached to value `c`, in point-list order. */
  function Group(points: seq<Point>, a: seq<Option<Point>>, c: Point): (g: seq<Point>)
    requires |a| == |points|
    ensures |g| == |Members(a, c)|
    ensures forall k :: 0 <= k < |g| ==> g[k] == points[Members(a, c)[k]]
  {
    var m := Members(a, c);
    seq(|m|, k requires 0 <= k < |m| => points[m[k]])
  }

  /** The positions attached to value `c`. */
  ghost function AttachedPositions(a: seq<Option<Point>>, c: Point): set<nat>
  {
    set i: nat | i < |a| && a[i] == Some(c)
  }

  /** The group of `c` holds exactly the points attached to `c`, once for
      each attached position. */
  lemma GroupIsAttachedPoints(points: seq<Point>, a: seq<Option<Point>>, c: Point)
    requires |a| == |points|
    ensures forall i :: 0 <= i < |points| && a[i] == Some(c) ==> points[i] in Group(points, a, c)
    ensures forall k :: 0 <= k < |Group(points, a, c)| ==>
              exists i :: 0 <= i < |points| && a[i] == Some(c) && Group(points, a, c)[k] == points[i]
    ensures |Group(points, a, c)| == |AttachedPositions(a, c)|
  {
    var g, m := Group(points, a, c), Members(a, c);
    forall i | 0 <= i < |points| && a[i] == Some(c)
      ensures points[i] in g
    {
      var k :| 0 <= k < |m| && m[k] == i;
      assert g[k] == points[i];
    }
    AttachedCount(a, c);
  }

  /** Members lists every attached position once. */
  lemma {:induction false} AttachedCount(a: seq<Option<Point>>, c: Point)
    ensures |Members(a, c)| == |AttachedPositions(a, c)|
  {
    if |a| > 0 {
      var n := |a| - 1;
      AttachedCount(a[..n], c);
      AttachedSnoc(a, c);
      assert n !in AttachedPositions(a[..n], c);
    }
  }

  lemma AttachedSnoc(a: seq<Option<Point>>, c: Point)
    requires |a| > 0
    ensures AttachedPositions(a, c) ==
              AttachedPositions(a[..|a| - 1], c) + (if a[|a| - 1] == Some(c) then {|a| - 1} else {})
  {
    var n := |a| - 1;
    forall i: nat
      ensures i in AttachedPositions(a, c) <==> i in AttachedPositions(a[..n], c) || (a[n] == Some(c) && i == n)
    {
      if i < n {
        assert a[..n][i] == a[i];
      }
    }
  }

  ghost predicate Distinct(cs: seq<Point>)
  {
    forall j, l :: 0 <= j < l < |cs| ==> cs[j] != cs[l]
  }

  /** The points the centroid at position `j` collects in the update.
      Centroids are told apart by position: a point attached to a value
      belongs to the first centroid holding that value, so a later copy of
      the same value collects nothing. */
  function OwnGroup(points: seq<Point>, a: seq<Option<Point>>, cs: seq<Point>, j: nat): seq<Point>
    requires |a| == |points| && j < |cs|
  {
    if cs[j] in cs[..j] then [] else Group(points, a, cs[j])
  }

  /** With distinct centroid values every centroid collects its whole group. */
  lemma DistinctOwnGroups(points: seq<Point>, a: seq<Option<Point>>, cs: seq<Point>)
    requires |a| == |points| && Distinct(cs)
    ensures forall j :: 0 <= j < |cs| ==> OwnGroup(points, a, cs, j) == Group(points, a, cs[j])
  {
    forall j | 0 <= j < |cs|
      ensures cs[j] !in cs[..j]
    {
      assert forall l :: 0 <= l < j ==> cs[..j][l] == cs[l] != cs[j];
    }
  }

  /** A point belongs to the centroid at position `j` exactly when the
      nearest-centroid scan, which keeps the first of equally near
      centroids, returns position `j` for it. */
  lemma OwnGroupIsNearestPosition(points: seq<Point>, cs: seq<Point>, j: nat, i: nat)
    requires |cs| > 0 && j < |cs| && i < |points|
    ensures (Assign(points, cs)[i] == Some(cs[j]) && cs[j] !in cs[..j]) <==> Nearest(points[i], cs) == j
  {
    var p, n := points[i], Nearest(points[i], cs);
    AssignIsNearest(points, cs, i);
    FirstOfEqualValues(p, cs);
    if n < j && Assign(points, cs)[i] == Some(cs[j]) {
      assert cs[..j][n] == cs[n];
    }
  }

  /** The scan's position holds a value no earlier centroid holds. */
  lemma FirstOfEqualValues(p: Point, cs: seq<Point>)
    requires |cs| > 0
    ensures cs[Nearest(p, cs)] !in cs[..Nearest(p, cs)]
  {
    var n := Nearest(p, cs);
    forall l | 0 <= l < n
      ensures cs[..n][l] != cs[n]
    {
      assert Dist2(p, cs[n]) < Dist2(p, cs[l]);
    }
  }

  /** For distinct centroid values, the groups partition the points: every
      point is in the group of exactly one centroid. */
  lemma GroupsPartition(points: seq<Point>, cs: seq<Point>)
    requires |cs| > 0 && Distinct(cs)
    ensures forall i :: 0 <= i < |points| ==>
      exists j :: 0 <= j < |cs| && i in Members(Assign(points, cs), cs[j]) && Closest(points[i], cs, cs[j])
    ensures forall i, j, l ::
              (0 <= i < |points| && 0 <= j < |cs| && 0 <= l < |cs| &&
               i in Members(Assign(points, cs), cs[j]) && i in Members(Assign(points, cs), cs[l]))
              ==> j == l
  {
    var a := Assign(points, cs);
    forall i | 0 <= i < |points|
      ensures exists j :: 0 <= j < |cs| && i in Members(a, cs[j]) && Closest(points[i], cs, cs[j])
    {
      var j :| 0 <= j < |cs| && cs[j] == a[i].value;
      assert a[i] == Some(cs[j]);
    }
    forall i, j, l | 0 <= i < |points| && 0 <= j < |cs| && 0 <= l < |cs| &&
      i in Members(a, cs[j]) && i in Members(a, cs[l])
      ensures j == l
    {
      OneValuePerMember(a, cs[j], cs[l], i);
    }
  }

  /** A position is a member of at most one value. */
  lemma OneValuePerMember(a: seq<Option<Point>>, c: Point, c': Point, i: nat)
    requires i in Members(a, c) && i in Members(a, c')
    ensures c == c'
  {
    var m, m' := Members(a, c), Members(a, c');
    var k :| 0 <= k < |m| && m[k] == i;
    var k' :| 0 <= k' < |m'| && m'[k'] == i;
  }

  /** A centroid that is the value of some point has a non-empty group, since
      that point takes its own value by the shortcut. */
  lemma SeededGroupNonEmpty(points: seq<Point>, cs: seq<Point>, j: nat)
    requires j < |cs| && cs[j] in points
    ensures |Group(points, Assign(points, cs), cs[j])| > 0
  {
    var a := Assign(points, cs);
    var i :| 0 <= i < |points| && points[i] == cs[j];
    assert a[i] == Some(cs[j]);
    assert i in Members(a, cs[j]);
  }
}

=== FILE: geometry.dfy ===
/** Points of the plane, the distance used to compare them, and the mean of a
    list of points.  Coordinates are exact reals: the floating-point rounding
    of the scripts is not modelled.  The assignment and the convergence test
    use the square of the Euclidean distance, which orders pairs of points
    the same way and is zero exactly when the Euclidean distance is; the
    k-means++ weights, which are summed, use the Euclidean distance itself. */
module Geometry {

  datatype Point = Point(x: real, y: real)

  /** Squared Euclidean distance between two points. */
  function Dist2(p: Point, q: Point): real
  {
    Square(p.x - q.x) + Square(p.y - q.y)
  }

  function Square(a: real): real
  {
    a * a
  }

  lemma SquareDividedBy(a: real)
    requires a != 0.0
    ensures a * a / a == a
  {
  }

  /** A square is non-negative, vanishes only at zero and ignores sign. */
  lemma SquareSign(a: real)
    ensures Square(a) >= 0.0
    ensures Square(a) == 0.0 ==> a == 0.0
    ensures Square(a) == Square(-a)
  {
    assert a * a >= 0.0;
    if a != 0.0 {
      SquareDividedBy(a);
      assert Square(a) / a == a;
    }
  }

  /** The distance is non-negative and vanishes exactly on equal points. */
  lemma Dist2Properties(p: Point, q: Point)
    ensures Dist2(p, q) >= 0.0
    ensures Dist2(p, q) == 0.0 <==> p == q
    ensures Dist2(p, q) == Dist2(q, p)
  {
    SquareSign(p.x - q.x);
    SquareSign(p.y - q.y);
    assert q.x - p.x == -(p.x - q.x) && q.y - p.y == -(p.y - q.y);
  }

  /** `dist` is the Euclidean distance of the scripts (`cal_distance`): the
      non-negative square root of `Dist2`.  Square roots are not computable
      over Dafny's reals, so the distance is a parameter tied down by this
      predicate. */
  ghost predicate IsEuclid(dist: (Point, Point) -> real)
  {
    forall p, q :: dist(p, q) >= 0.0 && Square(dist(p, q)) == Dist2(p, q)
  }

  lemma PositiveProduct(a: real, b: real)
    requires a > 0.0 && b > 0.0
    ensures a * b > 0.0
  {
  }

  /** Squaring is strictly increasing on the non-negative reals. */
  lemma SquareMonotone(a: real, b: real)
    requires 0.0 <= a < b
    ensures Square(a) < Square(b)
  {
    PositiveProduct(b - a, b + a);
    assert (b - a) * (b + a) == b * b - a * a;
  }

  /** Comparing Euclidean distances is the same as comparing their squares,
      so every nearest-centroid decision made with `Dist2` is the one the
      scripts make with the square root. */
  lemma EuclidOrdersLikeDist2(dist: (Point, Point) -> real, p: Point, a: Point, b: Point)
    requires IsEuclid(dist)
    ensures dist(p, a) < dist(p, b) <==> Dist2(p, a) < Dist2(p, b)
  {
    var da, db := dist(p, a), dist(p, b);
    if da < db {
      SquareMonotone(da, db);
    } else if db < da {
      SquareMonotone(db, da);
    }
  }

  /** `dist` is non-negative and vanishes exactly on equal points: all the
      seeding needs to know about the distance it weighs points by. */
  ghost predicate DistanceLike(dist: (Point, Point) -> real)
  {
    forall p, q :: dist(p, q) >= 0.0 && (dist(p, q) == 0.0 <==> p == q)
  }

  /** The Euclidean distance is non-negative and vanishes exactly on equal
      points. */
  lemma EuclidIsDistanceLike(dist: (Point, Point) -> real)
    requires IsEuclid(dist)
    ensures DistanceLike(dist)
  {
    forall p, q
      ensures dist(p, q) >= 0.0 && (dist(p, q) == 0.0 <==> p == q)
    {
      Dist2Properties(p, q);
      SquareSign(dist(p, q));
      assert Square(0.0) == 0.0;
    }
  }

  /** Coordinate-wise sum of a list of points, accumulated front to back. */
  function Total(pts: seq<Point>): Point
  {
    if |pts| == 0 then Point(0.0, 0.0)
    else
      var t := Total(pts[..|pts| - 1]);
      Point(t.x + pts[|pts| - 1].x, t.y + pts[|pts| - 1].y)
  }

  /** The mean of a non-empty list of points (`cal_centroid`).  An empty list
      makes the scripts divide by zero, so it is excluded here and the
      callers report it as an error before calling. */
  function Mean(pts: seq<Point>): (m: Point)
    requires |pts| > 0
    ensures m.x * (|pts| as real) == Total(pts).x
    ensures m.y * (|pts| as real) == Total(pts).y
  {
    Point(Total(pts).x / (|pts| as real), Total(pts).y / (|pts| as real))
  }

  /** A sum of reals, accumulated front to back like Python's `sum`. */
  function Sum(w: seq<real>): real
  {
    if |w| == 0 then 0.0 else Sum(w[..|w| - 1]) + w[|w| - 1]
  }

  predicate NonNegative(w: seq<real>)
  {
    forall i :: 0 <= i < |w| ==> w[i] >= 0.0
  }

  /** A sum of non-negative terms is zero exactly when every term is. */
  lemma {:induction false} SumZeroIffAllZero(w: seq<real>)
    requires NonNegative(w)
    ensures Sum(w) >= 0.0
    ensures Sum(w) == 0.0 <==> forall i :: 0 <= i < |w| ==> w[i] == 0.0
  {
    if |w| > 0 {
      var init := w[..|w| - 1];
      assert forall i :: 0 <= i < |init| ==> init[i] == w[i];
      SumZeroIffAllZero(init);
      if Sum(w) == 0.0 {
        forall i | 0 <= i < |w|
          ensures w[i] == 0.0
        {
          if i < |w| - 1 {
            assert init[i] == w[i];
          }
        }
      }
    }
  }

  /** The total of a list whose x-coordinates all exceed `a` exceeds
      `|pts| * a`; the same with the inequality reversed. */
  lemma {:induction false} TotalXAbove(pts: seq<Point>, a: real)
    requires |pts| > 0
    requires forall i :: 0 <= i < |pts| ==> pts[i].x > a
    ensures Total(pts).x > (|pts| as real) * a
  {
    if |pts| > 1 {
      var init := pts[..|pts| - 1];
      assert forall i :: 0 <= i < |init| ==> init[i] == pts[i];
      TotalXAbove(init, a);
      assert (|pts| as real) * a == (|init| as real) * a + a;
    }
  }

  lemma {:induction false} TotalXBelow(pts: seq<Point>, a: real)
    requires |pts| > 0
    requires forall i :: 0 <= i < |pts| ==> pts[i].x < a
    ensures Total(pts).x < (|pts| as real) * a
  {
    if |pts| > 1 {
      var init := pts[..|pts| - 1];
      assert forall i :: 0 <= i < |init| ==> init[i] == pts[i];
      TotalXBelow(init, a);
      assert (|pts| as real) * a == (|init| as real) * a + a;
    }
  }

  lemma {:induction false} TotalYAbove(pts: seq<Point>, a: real)
    requires |pts| > 0
    requires forall i :: 0 <= i < |pts| ==> pts[i].y > a
    ensures Total(pts).y > (|pts| as real) * a
  {
    if |pts| > 1 {
      var init := pts[..|pts| - 1];
      assert forall i :: 0 <= i < |init| ==> init[i] == pts[i];
      TotalYAbove(init, a);
      assert (|pts| as real) * a == (|init| as real) * a + a;
    }
  }

  lemma {:induction false} TotalYBelow(pts: seq<Point>, a: real)
    requires |pts| > 0
    requires forall i :: 0 <= i < |pts| ==> pts[i].y < a
    ensures Total(pts).y < (|pts| as real) * a
  {
    if |pts| > 1 {
      var init := pts[..|pts| - 1];
      assert forall i :: 0 <= i < |init| ==> init[i] == pts[i];
      TotalYBelow(init, a);
      assert (|pts| as real) * a == (|init| as real) * a + a;
    }
  }

  /** The mean lies inside the bounding box of the points it averages: on each
      axis some point is at or below it and some point at or above it. */
  lemma MeanWithinBounds(pts: seq<Point>)
    requires |pts| > 0
    ensures exists i :: 0 <= i < |pts| && pts[i].x <= Mean(pts).x
    ensures exists i :: 0 <= i < |pts| && Mean(pts).x <= pts[i].x
    ensures exists i :: 0 <= i < |pts| && pts[i].y <= Mean(pts).y
    ensures exists i :: 0 <= i < |pts| && Mean(pts).y <= pts[i].y
  {
    var m := Mean(pts);
    if forall i :: 0 <= i < |pts| ==> pts[i].x > m.x {
      TotalXAbove(pts, m.x);
      assert false;
    }
    if forall i :: 0 <= i < |pts| ==> pts[i].x < m.x {
      TotalXBelow(pts, m.x);
      assert false;
    }
    if forall i :: 0 <= i < |pts| ==> pts[i].y > m.y {
      TotalYAbove(pts, m.y);
      assert false;
    }
    if forall i :: 0 <= i < |pts| ==> pts[i].y < m.y {
      TotalYBelow(pts, m.y);
      assert false;
    }
  }

  /** Averaging copies of one point gives that point back. */
  lemma {:induction false} TotalOfCopies(pts: seq<Point>, p: Point)
    requires forall i :: 0 <= i < |pts| ==> pts[i] == p
    ensures Total(pts) == Point((|pts| as real) * p.x, (|pts| as real) * p.y)
  {
    if |pts| > 0 {
      var init := pts[..|pts| - 1];
      assert forall i :: 0 <= i < |init| ==> init[i] == pts[i];
      TotalOfCopies(init, p);
    }
  }

  lemma MeanOfCopies(pts: seq<Point>, p: Point)
    requires |pts| > 0
    requires forall i :: 0 <= i < |pts| ==> pts[i] == p
    ensures Mean(pts) == p
  {
    TotalOfCopies(pts, p);
  }
}

=== FILE: inertia.dfy ===
/** The within-cluster sum of squares ("inertia") and the reason Lloyd's
    iteration settles: one iteration never increases it.  Replacing each
    centroid by the mean of its group can only bring the group closer to its
    centroid, and reattaching every point to its nearest new centroid can
    only bring it closer again.

    The bookkeeping (summing point by point or group by group) is stated for
    any cost `d` between a point and a target; only the facts about means
    need the squared distance itself. */
module Inertia {
  import opened Geometry
  import opened Outcomes
  import opened Assignment
  import opened Lloyd

  // ---------------------------------------------------------------------
  // Sums of reals

  function Sum(s: seq<real>): real
  {
    if |s| == 0 then 0.0 else Sum(s[..|s| - 1]) + s[|s| - 1]
  }

  /** Entry by entry no larger, so no larger in total. */
  lemma {:induction false} SumBelow(s: seq<real>, t: seq<real>)
    requires |s| == |t|
    requires forall i :: 0 <= i < |s| ==> s[i] <= t[i]
    ensures Sum(s) <= Sum(t)
  {
    if |s| > 0 {
      var n := |s| - 1;
      SumBelow(s[..n], t[..n]);
    }
  }

  /** Adding `v` to one entry adds `v` to the total. */
  lemma {:induction false} SumAddAt(s: seq<real>, t: seq<real>, j: nat, v: real)
    requires j < |s| == |t|
    requires forall i :: 0 <= i < |s| ==> t[i] == (if i == j then s[i] + v else s[i])
    ensures Sum(t) == Sum(s) + v
  {
    var n := |s| - 1;
    if j < n {
      SumAddAt(s[..n], t[..n], j, v);
    } else {
      assert t[..n] == s[..n];
    }
  }

  lemma SumZeros(n: nat)
    ensures Sum(seq(n, _ => 0.0)) == 0.0
  {
    if n > 0 {
      assert seq(n, _ => 0.0)[..n - 1] == seq(n - 1, _ => 0.0);
      SumZeros(n - 1);
    }
  }

  // ---------------------------------------------------------------------
  // Costs of attaching points to targets

  /** Every point position is attached to a target position. */
  ghost predicate Attachment(points: seq<Point>, o: seq<nat>, xs: seq<Point>)
  {
    |o| == |points| && forall i :: 0 <= i < |o| ==> o[i] < |xs|
  }

  /** The cost `d` from each point to the target it is attached to. */
  function Costs(d: (Point, Point) -> real, points: seq<Point>, o: seq<nat>, xs: seq<Point>): (r: seq<real>)
    requires Attachment(points, o, xs)
    ensures |r| == |points|
  {
    seq(|points|, i requires 0 <= i < |points| => d(points[i], xs[o[i]]))
  }

  /** Sum of the costs from the points of `g` to `x`. */
  function Spread(d: (Point, Point) -> real, g: seq<Point>, x: Point): real
  {
    if |g| == 0 then 0.0 else Spread(d, g[..|g| - 1], x) + d(g[|g| - 1], x)
  }

  /** The points attached to target position `j`, in point-list order. */
  function AtPosition(points: seq<Point>, o: seq<nat>, j: nat): seq<Point>
    requires |o| == |points|
  {
    if |points| == 0 then []
    else
      var n := |points| - 1;
      AtPosition(points[..n], o[..n], j) + (if o[n] == j then [points[n]] else [])
  }

  /** For each target, the spread of the points attached to it. */
  function Spreads(d: (Point, Point) -> real, points: seq<Point>, o: seq<nat>, xs: seq<Point>): (r: seq<real>)
    requires |o| == |points|
    ensures |r| == |xs|
  {
    seq(|xs|, j requires 0 <= j < |xs| => Spread(d, AtPosition(points, o, j), xs[j]))
  }

  lemma SpreadSnoc(d: (Point, Point) -> real, g: seq<Point>, p: Point, x: Point)
    ensures Spread(d, g + [p], x) == Spread(d, g, x) + d(p, x)
  {
    assert (g + [p])[..|g|] == g;
  }

  /** Summing point by point and summing group by group agree. */
  lemma {:induction false} CostByGroups(d: (Point, Point) -> real, points: seq<Point>, o: seq<nat>, xs: seq<Point>)
    requires Attachment(points, o, xs)
    ensures Sum(Costs(d, points, o, xs)) == Sum(Spreads(d, points, o, xs))
  {
    if |points| == 0 {
      assert Spreads(d, points, o, xs) == seq(|xs|, _ => 0.0);
      SumZeros(|xs|);
    } else {
      var n := |points| - 1;
      CostByGroups(d, points[..n], o[..n], xs);
      CostsSnoc(d, points, o, xs);
      SpreadsSnoc(d, points, o, xs);
      SumAddAt(Spreads(d, points[..n], o[..n], xs), Spreads(d, points, o, xs), o[n], d(points[n], xs[o[n]]));
    }
  }

  lemma CostsSnoc(d: (Point, Point) -> real, points: seq<Point>, o: seq<nat>, xs: seq<Point>)
    requires Attachment(points, o, xs) && |points| > 0
    ensures var n := |points| - 1;
            Sum(Costs(d, points, o, xs)) == Sum(Costs(d, points[..n], o[..n], xs)) + d(points[n], xs[o[n]])
  {
    var n := |points| - 1;
    assert Costs(d, points, o, xs)[..n] == Costs(d, points[..n], o[..n], xs);
  }

  /** The last point adds its cost to the spread of its own target and
      leaves the others alone. */
  lemma SpreadsSnoc(d: (Point, Point) -> real, points: seq<Point>, o: seq<nat>, xs: seq<Point>)
    requires Attachment(points, o, xs) && |points| > 0
    ensures var n := |points| - 1;
            forall j :: 0 <= j < |xs| ==>
              Spreads(d, points, o, xs)[j] ==
                (if j == o[n] then Spreads(d, points[..n], o[..n], xs)[j] + d(points[n], xs[o[n]])
                 else Spreads(d, points[..n], o[..n], xs)[j])
  {
    var n := |points| - 1;
    forall j | 0 <= j < |xs|
      ensures Spreads(d, points, o, xs)[j]
              == (if j == o[n] then Spreads(d, points[..n], o[..n], xs)[j] + d(points[n], xs[j])
                  else Spreads(d, points[..n], o[..n], xs)[j])
    {
      var g := AtPosition(points[..n], o[..n], j);
      if j == o[n] {
        SpreadSnoc(d, g, points[n], xs[j]);
      } else {
        assert AtPosition(points, o, j) == g + [] == g;
      }
    }
  }

  /** The points attached to a position are the group of a value when a
      point is attached to that position exactly when the assignment gives
      it that value. */
  lemma {:induction false} AtPositionIsGroup(points: seq<Point>, o: seq<nat>, a: seq<Option<Point>>, j: nat, c: Point)
    requires |o| == |points| == |a|
    requires forall i :: 0 <= i < |points| ==> (o[i] == j <==> a[i] == Some(c))
    ensures AtPosition(points, o, j) == Group(points, a, c)
  {
    if |points| > 0 {
      var n := |points| - 1;
      AtPositionIsGroup(points[..n], o[..n], a[..n], j, c);
      GroupSnoc(points, a, c);
    }
  }

  /** The group of the whole list is the group of all but the last point,
      followed by the last point when it is attached to `c`. */
  lemma GroupSnoc(points: seq<Point>, a: seq<Option<Point>>, c: Point)
    requires |a| == |points| > 0
    ensures var n := |points| - 1;
            Group(points, a, c) == Group(points[..n], a[..n], c) + (if a[n] == Some(c) then [points[n]] else [])
  {
    var n := |points| - 1;
    var m, m' := Members(a, c), Members(a[..n], c);
    assert m == m' + (if a[n] == Some(c) then [n] else []);
    var g, g' := Group(points, a, c), Group(points[..n], a[..n], c);
    var rhs := g' + (if a[n] == Some(c) then [points[n]] else []);
    assert |g| == |rhs|;
    forall k | 0 <= k < |g|
      ensures g[k] == rhs[k]
    {
      if k < |g'| {
        assert m[k] == m'[k] < n;
      }
    }
  }

  // ---------------------------------------------------------------------
  // The squared distance: inertia, and the mean as the best target

  /** The position of each point's nearest centroid. */
  function Positions(points: seq<Point>, cs: seq<Point>): (o: seq<nat>)
    requires |cs| > 0
    ensures Attachment(points, o, cs)
    ensures forall i :: 0 <= i < |points| ==> o[i] == Nearest(points[i], cs)
  {
    seq(|points|, i requires 0 <= i < |points| => Nearest(points[i], cs))
  }

  /** The within-cluster sum of squares: each point's squared distance to
      its nearest centroid, summed over the points. */
  function Inertia(points: seq<Point>, cs: seq<Point>): real
    requires |cs| > 0
  {
    Sum(Costs(Dist2, points, Positions(points, cs), cs))
  }

  /** Attaching every point to its nearest target is the cheapest
      attachment to those targets. */
  lemma NearestIsCheapest(points: seq<Point>, xs: seq<Point>, o: seq<nat>)
    requires |xs| > 0 && Attachment(points, o, xs)
    ensures Inertia(points, xs) <= Sum(Costs(Dist2, points, o, xs))
  {
    SumBelow(Costs(Dist2, points, Positions(points, xs), xs), Costs(Dist2, points, o, xs));
  }

  /** Signed deviations of the group from `y`, summed per coordinate. */
  function DevX(g: seq<Point>, y: Point): real
  {
    if |g| == 0 then 0.0 else DevX(g[..|g| - 1], y) + (g[|g| - 1].x - y.x)
  }

  function DevY(g: seq<Point>, y: Point): real
  {
    if |g| == 0 then 0.0 else DevY(g[..|g| - 1], y) + (g[|g| - 1].y - y.y)
  }

  /** The deviations add up to the group's total less `|g|` copies of `y`. */
  lemma {:induction false} DevIsTotalLess(g: seq<Point>, y: Point)
    ensures DevX(g, y) == Total(g).x - (|g| as real) * y.x
    ensures DevY(g, y) == Total(g).y - (|g| as real) * y.y
  {
    if |g| > 0 {
      var init := g[..|g| - 1];
      DevIsTotalLess(init, y);
      Distribute(|init| as real, 1.0, y.x);
      Distribute(|init| as real, 1.0, y.y);
    }
  }

  lemma Distribute(a: real, b: real, c: real)
    ensures (a + b) * c == a * c + b * c
  {
  }

  /** On every point of `g`, moving the reference point of `d` from `y` to
      `x` changes `d` the way it changes the squared distance. */
  ghost predicate ShiftsLikeSquares(d: (Point, Point) -> real, g: seq<Point>, x: Point, y: Point)
  {
    forall i :: 0 <= i < |g| ==>
      d(g[i], x) == d(g[i], y) + 2.0 * ((g[i].x - y.x) * (y.x - x.x) + (g[i].y - y.y) * (y.y - x.y)) + d(y, x)
  }

  /** For any cost that shifts like the squared distance on each point of
      `g`, the whole spread shifts that way too. */
  lemma {:induction false} SpreadShift(d: (Point, Point) -> real, g: seq<Point>, x: Point, y: Point)
    requires ShiftsLikeSquares(d, g, x, y)
    ensures ShiftedSpread(d, g, x, y)
  {
    if |g| == 0 {
      ZeroShift(Spread(d, g, x), Spread(d, g, y), DevX(g, y), DevY(g, y), y.x - x.x, y.y - x.y, |g| as real, d(y, x));
    } else {
      var n := |g| - 1;
      assert ShiftsLikeSquares(d, g[..n], x, y) by {
        assert forall i :: 0 <= i < n ==> g[..n][i] == g[i];
      }
      SpreadShift(d, g[..n], x, y);
      SpreadShiftSnoc(d, g, x, y);
    }
  }

  /** Spread around `x` is spread around `y`, plus twice the deviations
      from `y` times the offset, plus `|g|` times the cost of the offset. */
  ghost predicate ShiftedSpread(d: (Point, Point) -> real, g: seq<Point>, x: Point, y: Point)
  {
    Spread(d, g, x) ==
      Spread(d, g, y) + 2.0 * (DevX(g, y) * (y.x - x.x) + DevY(g, y) * (y.y - x.y)) + (|g| as real) * d(y, x)
  }

  /** The identity for all but the last point extends to the last point. */
  lemma SpreadShiftSnoc(d: (Point, Point) -> real, g: seq<Point>, x: Point, y: Point)
    requires |g| > 0 && ShiftsLikeSquares(d, g, x, y) && ShiftedSpread(d, g[..|g| - 1], x, y)
    ensures ShiftedSpread(d, g, x, y)
  {
    var n := |g| - 1;
    var init, p := g[..n], g[n];
    ShiftStep(Spread(d, init, x), Spread(d, init, y), DevX(init, y), DevY(init, y),
              p.x - y.x, p.y - y.y, y.x - x.x, y.y - x.y, n as real, d(y, x), d(p, x), d(p, y),
              Spread(d, g, x), Spread(d, g, y), DevX(g, y), DevY(g, y), |g| as real);
  }

  lemma ZeroShift(sx: real, sy: real, ex: real, ey: real, dx: real, dy: real, n: real, e: real)
    requires sx == 0.0 && sy == 0.0 && ex == 0.0 && ey == 0.0 && n == 0.0
    ensures sx == sy + 2.0 * (ex * dx + ey * dy) + n * e
  {
  }

  /** The arithmetic of one step of `SpreadShift`: the identity for a group
      and the identity for one more point add up to the identity for the
      larger group. */
  lemma ShiftStep(sx: real, sy: real, ex: real, ey: real, ax: real, ay: real, dx: real, dy: real, n: real,
                  e: real, px: real, py: real, sx': real, sy': real, ex': real, ey': real, n': real)
    requires sx == sy + 2.0 * (ex * dx + ey * dy) + n * e
    requires px == py + 2.0 * (ax * dx + ay * dy) + e
    requires sx' == sx + px && sy' == sy + py && ex' == ex + ax && ey' == ey + ay && n' == n + 1.0
    ensures sx' == sy' + 2.0 * (ex' * dx + ey' * dy) + n' * e
  {
    Distribute(ex, ax, dx);
    Distribute(ey, ay, dy);
    Distribute(n, 1.0, e);
  }

  /** The same identity for one point. */
  lemma PointShift(p: Point, x: Point, y: Point)
    ensures Dist2(p, x) == Dist2(p, y) + 2.0 * ((p.x - y.x) * (y.x - x.x) + (p.y - y.y) * (y.y - x.y)) + Dist2(y, x)
  {
    var a, b, c, e := p.x - y.x, y.x - x.x, p.y - y.y, y.y - x.y;
    assert p.x - x.x == a + b && p.y - x.y == c + e;
    assert (a + b) * (a + b) == a * a + 2.0 * a * b + b * b;
    assert (c + e) * (c + e) == c * c + 2.0 * c * e + e * e;
  }

  /** A group is no more spread around its mean than around any other
      point. */
  lemma MeanMinimisesSpread(g: seq<Point>, x: Point)
    requires |g| > 0
    ensures Spread(Dist2, g, Mean(g)) <= Spread(Dist2, g, x)
  {
    SquaresShift(g, x, Mean(g));
    Dist2Properties(Mean(g), x);
    SpreadAroundMean(Dist2, g, x);
  }

  /** The same for any cost that shifts like the squared distance and is
      non-negative between the mean and `x`. */
  lemma SpreadAroundMean(d: (Point, Point) -> real, g: seq<Point>, x: Point)
    requires |g| > 0 && ShiftsLikeSquares(d, g, x, Mean(g)) && d(Mean(g), x) >= 0.0
    ensures Spread(d, g, Mean(g)) <= Spread(d, g, x)
  {
    var m := Mean(g);
    SpreadShift(d, g, x, m);
    NoDeviationFromMean(g);
    MeanStep(Spread(d, g, x), Spread(d, g, m), DevX(g, m), DevY(g, m), m.x - x.x, m.y - x.y, |g| as real, d(m, x));
  }

  /** `PointShift` for every point of `g`. */
  lemma SquaresShift(g: seq<Point>, x: Point, y: Point)
    ensures ShiftsLikeSquares(Dist2, g, x, y)
  {
    forall i | 0 <= i < |g|
      ensures Dist2(g[i], x) == Dist2(g[i], y) + 2.0 * ((g[i].x - y.x) * (y.x - x.x) + (g[i].y - y.y) * (y.y - x.y)) + Dist2(y, x)
    {
      PointShift(g[i], x, y);
    }
  }

  /** Around the mean the deviations cancel. */
  lemma NoDeviationFromMean(g: seq<Point>)
    requires |g| > 0
    ensures DevX(g, Mean(g)) == 0.0 && DevY(g, Mean(g)) == 0.0
  {
    var m, n := Mean(g), |g| as real;
    DevIsTotalLess(g, m);
    assert n * m.x == m.x * n && n * m.y == m.y * n;
  }

  /** The arithmetic of `MeanMinimisesSpread`: with the deviations gone,
      what is left is a non-negative multiple of a square. */
  lemma MeanStep(sx: real, sm: real, ex: real, ey: real, a: real, b: real, n: real, e: real)
    requires sx == sm + 2.0 * (ex * a + ey * b) + n * e
    requires ex == 0.0 && ey == 0.0 && n >= 0.0 && e >= 0.0
    ensures sm <= sx
  {
    NonNegativeProduct(n, e);
  }

  lemma NonNegativeProduct(a: real, b: real)
    requires a >= 0.0 && b >= 0.0
    ensures a * b >= 0.0
  {
  }

  // ---------------------------------------------------------------------
  // One iteration does not increase the inertia

  /** A successful iteration never increases the within-cluster sum of
      squares. */
  lemma StepDoesNotIncreaseInertia(points: seq<Point>, cs: seq<Point>, iteration: nat)
    requires |cs| > 0
    ensures Step(points, cs, iteration).Success? ==>
              Inertia(points, Step(points, cs, iteration).value) <= Inertia(points, cs)
  {
    var r := Step(points, cs, iteration);
    if r.Success? {
      StepNeedsDistinct(points, cs, iteration);
      DistinctOwnGroups(points, Assign(points, cs), cs);
      MeansDoNotIncreaseInertia(points, cs, r.value);
    }
  }

  /** Replacing distinct centroids by the means of their groups does not
      increase the within-cluster sum of squares. */
  lemma MeansDoNotIncreaseInertia(points: seq<Point>, cs: seq<Point>, ncs: seq<Point>)
    requires |cs| > 0 && |ncs| == |cs| && Distinct(cs)
    requires forall j :: 0 <= j < |cs| ==>
               |Group(points, Assign(points, cs), cs[j])| > 0 && ncs[j] == Mean(Group(points, Assign(points, cs), cs[j]))
    ensures Inertia(points, ncs) <= Inertia(points, cs)
  {
    var o := Positions(points, cs);
    forall j | 0 <= j < |cs|
      ensures Spread(Dist2, AtPosition(points, o, j), ncs[j]) <= Spread(Dist2, AtPosition(points, o, j), cs[j])
    {
      NearestGroup(points, cs, j);
      MeanMinimisesSpread(Group(points, Assign(points, cs), cs[j]), cs[j]);
    }
    SumBelow(Spreads(Dist2, points, o, ncs), Spreads(Dist2, points, o, cs));
    CostByGroups(Dist2, points, o, ncs);
    CostByGroups(Dist2, points, o, cs);
    NearestIsCheapest(points, ncs, o);
  }

  /** With distinct centroids, the points whose nearest centroid is at
      position `j` are the group of that centroid's value. */
  lemma NearestGroup(points: seq<Point>, cs: seq<Point>, j: nat)
    requires j < |cs| && Distinct(cs)
    ensures AtPosition(points, Positions(points, cs), j) == Group(points, Assign(points, cs), cs[j])
  {
    var a, o := Assign(points, cs), Positions(points, cs);
    assert cs[j] !in cs[..j] by {
      assert forall l :: 0 <= l < j ==> cs[..j][l] == cs[l] != cs[j];
    }
    forall i | 0 <= i < |points|
      ensures o[i] == j <==> a[i] == Some(cs[j])
    {
      OwnGroupIsNearestPosition(points, cs, j, i);
    }
    AtPositionIsGroup(points, o, a, j, cs[j]);
  }
}

=== FILE: kmeans.dfy ===
/** The two scripts end to end: seed, then iterate until no centroid moves.
    Both share the iteration loop; they differ only in how they seed. */
module KMeans {
  import opened Geometry
  import opened Outcomes
  import opened Assignment
  import opened Lloyd
  import opened Seeding

  /** Two of the sampled positions hold the same point value. */
  ghost predicate PicksRepeatValue(points: seq<Point>, picks: seq<nat>)
    requires forall t :: 0 <= t < |picks| ==> picks[t] < |points|
  {
    exists s, t :: 0 <= s < t < |picks| && points[picks[s]] == points[picks[t]]
  }

  /** k-means: K centroids sampled uniformly from the points (the sampler's
      choice of positions is `picks`), then the iteration loop from
      iteration 0 with at most `fuel` iterations. */
  function KMeansRun(points: seq<Point>, k: int, picks: seq<nat>, fuel: nat): (r: Result<Clustering>)
    requires 0 <= k <= |points| ==> IsSample(picks, |points|, k)
    ensures r.Failure? && r.error.SampleSize? <==> k < 0 || k > |points|
    ensures r.Success? ==> |r.value.centroids| == k && Converged(points, r.value) && r.value.iteration < fuel
    ensures r.Failure? && r.error.EmptyGroup? ==> r.error.iteration < fuel
    ensures r.Failure? && r.error.OutOfFuel? ==> r.error.iterations == fuel
    ensures r.Failure? && r.error.EmptyGroup? && r.error.iteration == 0 <==>
              0 <= k <= |points| && fuel > 0 && PicksRepeatValue(points, picks)
    ensures 0 <= k <= |points| ==>
              (r.Success? <==> exists t: nat :: t < fuel && FirstFixedAt(StepOf(points), UniformSeed(points, k, picks).value, 0, t))
    ensures 0 <= k <= |points| && r.Failure? ==>
              || r.error == OutOfFuel(fuel)
              || exists t: nat :: t < fuel && FailsAt(StepOf(points), UniformSeed(points, k, picks).value, 0, t, r.error)
    ensures 0 <= k <= |points| ==>
              forall t: nat, e: KMeansError ::
                && t < fuel
                && FailsAt(StepOf(points), UniformSeed(points, k, picks).value, 0, t, e)
                && (forall s: nat :: s < t ==> !FixedAt(StepOf(points), UniformSeed(points, k, picks).value, 0, s))
                ==> r == Failure(e)
  {
    match UniformSeed(points, k, picks)
    case Failure(e) => Failure(e)
    case Success(cs) =>
      SeededRunFailsAtOnceIffRepeated(points, cs, fuel);
      SampleDistinctIff(points, k, picks);
      RunSucceedsIffFixedPointReached(points, cs, 0, fuel);
      Run(points, cs, 0, fuel)
  }

  /** The sampled centroids are distinct exactly when the sampled positions
      hold distinct values. */
  lemma SampleDistinctIff(points: seq<Point>, k: int, picks: seq<nat>)
    requires 0 <= k <= |points| && IsSample(picks, |points|, k)
    ensures Distinct(UniformSeed(points, k, picks).value) <==> !PicksRepeatValue(points, picks)
  {
    var cs := UniformSeed(points, k, picks).value;
    if !Distinct(cs) {
      var s, t :| 0 <= s < t < |cs| && cs[s] == cs[t];
      assert points[picks[s]] == points[picks[t]];
    }
  }

  /** A k-means run that converges returns the first fixed point of the
      trajectory from the sampled centroids, in the iteration that reached
      it. */
  lemma KMeansRunStopsAtFirstFixedPoint(points: seq<Point>, k: int, picks: seq<nat>, fuel: nat, c: Clustering)
    requires 0 <= k <= |points| ==> IsSample(picks, |points|, k)
    requires KMeansRun(points, k, picks, fuel) == Success(c)
    ensures 0 <= k <= |points|
    ensures FirstFixedAt(StepOf(points), UniformSeed(points, k, picks).value, 0, c.iteration)
    ensures Iterate(StepOf(points), UniformSeed(points, k, picks).value, 0, c.iteration) == Some(c.centroids)
  {
    var cs := UniformSeed(points, k, picks).value;
    RunStopsAtFirstFixedPoint(points, cs, 0, fuel, c, c.iteration);
  }

  /** With K equal to the number of points every point is a centroid.  When
      the point values are distinct the first iteration moves nothing, so the
      run converges in iteration 0, attaching every point to its own value;
      when a value repeats, its second copy collects nothing and iteration 0
      fails. */
  lemma AllPointsConvergeAtOnce(points: seq<Point>, picks: seq<nat>, fuel: nat)
    requires fuel > 0
    requires IsSample(picks, |points|, |points|)
    ensures var r := KMeansRun(points, |points|, picks, fuel);
            Distinct(points) ==>
              && r.Success?
              && r.value.iteration == 0
              && (forall i :: 0 <= i < |points| ==> points[i] in r.value.centroids)
              && (forall i :: 0 <= i < |points| ==> r.value.assignment[i] == Some(points[i]))
    ensures var r := KMeansRun(points, |points|, picks, fuel);
            !Distinct(points) ==> r.Failure? && r.error.EmptyGroup? && r.error.iteration == 0
  {
    var cs := UniformSeed(points, |points|, picks).value;
    FullSampleCoversAll(picks, |points|);
    forall i | 0 <= i < |points|
      ensures points[i] in cs
    {
      assert i in picks;
      var t :| 0 <= t < |picks| && picks[t] == i;
      assert cs[t] == points[i];
    }
    if Distinct(points) {
      SampleOfDistinct(points, picks);
      EveryPointACentroid(points, cs, 0);
      RunFromFixedPoint(points, cs, 0, fuel);
    } else {
      FullSampleRepeats(points, picks);
    }
  }

  /** A sample of every position picks both copies of a repeated value. */
  lemma FullSampleRepeats(points: seq<Point>, picks: seq<nat>)
    requires IsSample(picks, |points|, |points|) && !Distinct(points)
    ensures PicksRepeatValue(points, picks)
  {
    FullSampleCoversAll(picks, |points|);
    var i, j :| 0 <= i < j < |points| && points[i] == points[j];
    assert i in picks && j in picks;
    var s :| 0 <= s < |picks| && picks[s] == i;
    var t :| 0 <= t < |picks| && picks[t] == j;
    if s < t {
      assert points[picks[s]] == points[picks[t]];
    } else {
      assert points[picks[t]] == points[picks[s]];
    }
  }

  /** Distinct positions of distinct values hold distinct values. */
  lemma SampleOfDistinct(points: seq<Point>, picks: seq<nat>)
    requires IsSample(picks, |points|, |points|) && Distinct(points)
    ensures Distinct(UniformSeed(points, |points|, picks).value)
  {
    var cs := UniformSeed(points, |points|, picks).value;
    forall s, t | 0 <= s < t < |cs|
      ensures cs[s] != cs[t]
    {
      assert cs[s] == points[picks[s]] && cs[t] == points[picks[t]];
      assert picks[s] != picks[t];
      if picks[s] < picks[t] {
        assert points[picks[s]] != points[picks[t]];
      } else {
        assert points[picks[t]] != points[picks[s]];
      }
    }
  }

  /** k-means++: seed from the point at position `d` with one draw per
      further centroid, weighing points by the Euclidean distance `dist`,
      then run the same iteration loop from the seeds. */
  method KMeansPlusPlus(points: seq<Point>, d: nat, k: int, dist: (Point, Point) -> real,
                        draws: seq<real -> real>, fuel: nat) returns (seeds: seq<Point>, r: Result<Clustering>)
    requires d < |points| && IsEuclid(dist)
    requires |draws| == Rounds(k)
    requires forall t :: 0 <= t < |draws| ==> ValidDraw(draws[t])
    ensures |seeds| == 1 + Rounds(k) && seeds[0] == points[d]
    ensures forall t :: 0 <= t < |seeds| ==> seeds[t] in points
    ensures DrawnRounds(points, dist, draws, seeds)
    ensures r == Run(points, seeds, 0, fuel)
    ensures r.Success? ==>
              && |r.value.centroids| == 1 + Rounds(k)
              && Converged(points, r.value)
              && r.value.iteration < fuel
    ensures r.Failure? ==>
              || (r.error.EmptyGroup? && r.error.iteration < fuel)
              || r.error == OutOfFuel(fuel)
    ensures r.Failure? && r.error.EmptyGroup? && r.error.iteration == 0 <==> fuel > 0 && !Distinct(seeds)
  {
    EuclidIsDistanceLike(dist);
    seeds := SeedPlusPlus(points, d, k, dist, draws);
    SeededRunFailsAtOnceIffRepeated(points, seeds, fuel);
    r := Run(points, seeds, 0, fuel);
  }

  /** The draws of `k-means++.py`: the total weight times the generator's next
      value in [0, 1), one value per round. */
  function GeneratorDraws(us: seq<real>): (draws: seq<real -> real>)
    requires forall t :: 0 <= t < |us| ==> 0.0 <= us[t] < 1.0
    ensures |draws| == |us|
    ensures forall t :: 0 <= t < |us| ==> ValidDraw(draws[t])
    ensures forall t :: 0 <= t < |us| && us[t] > 0.0 ==> PositiveDraw(draws[t])
  {
    var draws := seq(|us|, t requires 0 <= t < |us| => Scaled(us[t]));
    assert forall t :: 0 <= t < |us| ==> ValidDraw(draws[t]) && (us[t] > 0.0 ==> PositiveDraw(draws[t])) by {
      forall t | 0 <= t < |us|
        ensures ValidDraw(draws[t]) && (us[t] > 0.0 ==> PositiveDraw(draws[t]))
      {
        ScaledIsValid(us[t]);
      }
    }
    draws
  }
}

=== FILE: lloyd.dfy ===
/** The update phase of one Lloyd iteration, the convergence test, and the
    iteration loop that both scripts run after seeding. */
module Lloyd {
  import opened Geometry
  import opened Outcomes
  import opened Assignment

  /** What the update must give: on success one mean per centroid, of the
      points it collects; on failure the first centroid that collects no
      point. */
  ghost predicate UpdateSpec(points: seq<Point>, a: seq<Option<Point>>, cs: seq<Point>, iteration: nat,
                             r: Result<seq<Point>>)
    requires |a| == |points|
  {
    match r
    case Success(ms) =>
      && |ms| == |cs|
      && forall j :: 0 <= j < |cs| ==> |OwnGroup(points, a, cs, j)| > 0 && ms[j] == Mean(OwnGroup(points, a, cs, j))
    case Failure(e) =>
      && e.EmptyGroup?
      && e.iteration == iteration
      && e.centroid < |cs|
      && |OwnGroup(points, a, cs, e.centroid)| == 0
      && forall j :: 0 <= j < e.centroid ==> |OwnGroup(points, a, cs, j)| > 0
  }

  /** The specification leaves no choice: two results meeting it are equal. */
  lemma UpdateSpecUnique(points: seq<Point>, a: seq<Option<Point>>, cs: seq<Point>, iteration: nat,
                         r: Result<seq<Point>>, r': Result<seq<Point>>)
    requires |a| == |points|
    requires UpdateSpec(points, a, cs, iteration, r)
    requires UpdateSpec(points, a, cs, iteration, r')
    ensures r == r'
  {
    if r.Success? && r'.Success? {
      assert r.value == r'.value;
    }
  }

  /** New centroids: for each old centroid, in list order, the mean of the
      points it collects.  The first centroid that collects nothing stops the
      update, as the division by zero does in the scripts. */
  function Update(points: seq<Point>, a: seq<Option<Point>>, cs: seq<Point>, iteration: nat): (r: Result<seq<Point>>)
    requires |a| == |points|
    ensures UpdateSpec(points, a, cs, iteration, r)
  {
    if |cs| == 0 then Success([])
    else
      var init := cs[..|cs| - 1];
      match Update(points, a, init, iteration)
      case Failure(e) =>
        UpdateFailureExtends(points, a, cs, iteration, e);
        Failure(e)
      case Success(ms) =>
        var g := OwnGroup(points, a, cs, |cs| - 1);
        if |g| == 0 then
          UpdateEmptyLast(points, a, cs, iteration, ms);
          Failure(EmptyGroup(iteration, |cs| - 1))
        else
          UpdateSuccessExtends(points, a, cs, iteration, ms);
          Success(ms + [Mean(g)])
  }

  lemma UpdateFailureExtends(points: seq<Point>, a: seq<Option<Point>>, cs: seq<Point>, iteration: nat, e: KMeansError)
    requires |a| == |points| && |cs| > 0
    requires UpdateSpec(points, a, cs[..|cs| - 1], iteration, Failure(e))
    ensures UpdateSpec(points, a, cs, iteration, Failure(e))
  {
    OwnGroupsOfPrefix(points, a, cs, |cs| - 1);
  }

  lemma UpdateEmptyLast(points: seq<Point>, a: seq<Option<Point>>, cs: seq<Point>, iteration: nat, ms: seq<Point>)
    requires |a| == |points| && |cs| > 0
    requires UpdateSpec(points, a, cs[..|cs| - 1], iteration, Success(ms))
    requires |OwnGroup(points, a, cs, |cs| - 1)| == 0
    ensures UpdateSpec(points, a, cs, iteration, Failure(EmptyGroup(iteration, |cs| - 1)))
  {
    OwnGroupsOfPrefix(points, a, cs, |cs| - 1);
    forall j | 0 <= j < |cs| - 1
      ensures |OwnGroup(points, a, cs, j)| > 0
    {
      assert |OwnGroup(points, a, cs[..|cs| - 1], j)| > 0;
    }
  }

  lemma UpdateSuccessExtends(points: seq<Point>, a: seq<Option<Point>>, cs: seq<Point>, iteration: nat, ms: seq<Point>)
    requires |a| == |points| && |cs| > 0
    requires UpdateSpec(points, a, cs[..|cs| - 1], iteration, Success(ms))
    requires |OwnGroup(points, a, cs, |cs| - 1)| > 0
    ensures UpdateSpec(points, a, cs, iteration, Success(ms + [Mean(OwnGroup(points, a, cs, |cs| - 1))]))
  {
    OwnGroupsOfPrefix(points, a, cs, |cs| - 1);
    var ms' := ms + [Mean(OwnGroup(points, a, cs, |cs| - 1))];
    forall k | 0 <= k < |ms'|
      ensures |OwnGroup(points, a, cs, k)| > 0 && ms'[k] == Mean(OwnGroup(points, a, cs, k))
    {
      if k < |ms| {
        assert ms'[k] == ms[k];
        assert |OwnGroup(points, a, cs[..|cs| - 1], k)| > 0;
      }
    }
  }

  /** A centroid collects the same points whether or not later centroids
      are present. */
  lemma OwnGroupsOfPrefix(points: seq<Point>, a: seq<Option<Point>>, cs: seq<Point>, n: nat)
    requires |a| == |points| && n <= |cs|
    ensures forall j :: 0 <= j < n ==> OwnGroup(points, a, cs[..n], j) == OwnGroup(points, a, cs, j)
  {
    forall j | 0 <= j < n
      ensures OwnGroup(points, a, cs[..n], j) == OwnGroup(points, a, cs, j)
    {
      assert cs[..n][..j] == cs[..j];
      assert cs[..n][j] == cs[j];
    }
  }

  /** One iteration: assign every point, then average what every centroid
      collects. */
  function Step(points: seq<Point>, cs: seq<Point>, iteration: nat): (r: Result<seq<Point>>)
    ensures r.Success? ==>
              && |r.value| == |cs|
              && forall j :: 0 <= j < |cs| ==>
                   var g := OwnGroup(points, Assign(points, cs), cs, j);
                   |g| > 0 && r.value[j] == Mean(g)
    ensures r.Failure? ==>
              && r.error.EmptyGroup?
              && r.error.iteration == iteration
              && r.error.centroid < |cs|
              && |OwnGroup(points, Assign(points, cs), cs, r.error.centroid)| == 0
    ensures r.Failure? <==>
              exists j :: 0 <= j < |cs| && |OwnGroup(points, Assign(points, cs), cs, j)| == 0
  {
    Update(points, Assign(points, cs), cs, iteration)
  }

  /** An iteration fails whenever one centroid value is listed twice: the
      second copy collects nothing. */
  lemma StepNeedsDistinct(points: seq<Point>, cs: seq<Point>, iteration: nat)
    ensures Step(points, cs, iteration).Success? ==> Distinct(cs)
  {
    if !Distinct(cs) {
      var j, l :| 0 <= j < l < |cs| && cs[j] == cs[l];
      assert cs[..l][j] == cs[l];
      assert |OwnGroup(points, Assign(points, cs), cs, l)| == 0;
    }
  }

  /** Total movement between old and new centroids, paired by position.  The
      scripts sum Euclidean distances; squared ones vanish on the same
      pairs, so the sum is zero in exactly the same cases. */
  function Movement(cs: seq<Point>, ncs: seq<Point>): (d: real)
    requires |cs| == |ncs|
    ensures d >= 0.0
    ensures d == 0.0 <==> cs == ncs
  {
    MovesVanishIffEqual(cs, ncs);
    Sum(Moves(cs, ncs))
  }

  /** How far each centroid moved. */
  function Moves(cs: seq<Point>, ncs: seq<Point>): seq<real>
    requires |cs| == |ncs|
  {
    seq(|cs|, j requires 0 <= j < |cs| => Dist2(cs[j], ncs[j]))
  }

  lemma MovesVanishIffEqual(cs: seq<Point>, ncs: seq<Point>)
    requires |cs| == |ncs|
    ensures Sum(Moves(cs, ncs)) >= 0.0
    ensures Sum(Moves(cs, ncs)) == 0.0 <==> cs == ncs
  {
    var moves := Moves(cs, ncs);
    forall j | 0 <= j < |cs| {
      Dist2Properties(cs[j], ncs[j]);
    }
    SumZeroIffAllZero(moves);
    if Sum(moves) == 0.0 {
      forall j | 0 <= j < |cs|
        ensures cs[j] == ncs[j]
      {
        assert moves[j] == Dist2(cs[j], ncs[j]) == 0.0;
      }
    }
  }

  /** The movement sum exactly as the scripts compute it, with Euclidean
      distances. */
  function EuclidMovement(cs: seq<Point>, ncs: seq<Point>, dist: (Point, Point) -> real): real
    requires |cs| == |ncs|
  {
    Sum(seq(|cs|, j requires 0 <= j < |cs| => dist(cs[j], ncs[j])))
  }

  /** The scripts' convergence test and the squared one agree: the sum of
      Euclidean movements is zero exactly when the sum of squared ones is. */
  lemma EuclidMovementZeroIff(cs: seq<Point>, ncs: seq<Point>, dist: (Point, Point) -> real)
    requires |cs| == |ncs| && IsEuclid(dist)
    ensures EuclidMovement(cs, ncs, dist) >= 0.0
    ensures EuclidMovement(cs, ncs, dist) == 0.0 <==> Movement(cs, ncs) == 0.0
  {
    var ds := seq(|cs|, j requires 0 <= j < |cs| => dist(cs[j], ncs[j]));
    EuclidIsDistanceLike(dist);
    assert forall j :: 0 <= j < |cs| ==> ds[j] == dist(cs[j], ncs[j]);
    SumZeroIffAllZero(ds);
    if Sum(ds) == 0.0 {
      forall j | 0 <= j < |cs|
        ensures cs[j] == ncs[j]
      {
        assert ds[j] == 0.0;
      }
    }
  }

  // ---------------------------------------------------------------------
  // The loop

  /** The iteration as a function of the centroids and the iteration
      number. */
  function StepOf(points: seq<Point>): (seq<Point>, nat) -> Result<seq<Point>>
  {
    (cs: seq<Point>, iteration: nat) => Step(points, cs, iteration)
  }

  /** The loop's control flow over an iteration `step`, starting at iteration
      number `iteration`: it stops when an iteration leaves every centroid
      where it was, and passes on the first failing iteration's error.  The
      scripts loop without bound; here at most `fuel` iterations run.  On
      success it returns the centroids and the number of the iteration that
      gave them back unchanged. */
  function Loop(step: (seq<Point>, nat) -> Result<seq<Point>>, cs: seq<Point>, iteration: nat, fuel: nat)
    : (r: Result<(seq<Point>, nat)>)
    decreases fuel
    ensures r.Success? ==>
              && iteration <= r.value.1 < iteration + fuel
              && step(r.value.0, r.value.1) == Success(r.value.0)
  {
    if fuel == 0 then Failure(OutOfFuel(iteration))
    else
      match step(cs, iteration)
      case Failure(e) => Failure(e)
      case Success(ncs) =>
        if |ncs| == |cs| && Movement(cs, ncs) == 0.0 then Success((cs, iteration))
        else Loop(step, ncs, iteration + 1, fuel - 1)
  }

  /** The outcome of a converged run: the final centroids, the value each
      point is attached to, and the number of the iteration that converged. */
  datatype Clustering = Clustering(centroids: seq<Point>, assignment: seq<Option<Point>>, iteration: nat)

  /** `c` is a fixed point of the iteration: the assignment is the one its
      centroids induce and updating them gives them back unchanged. */
  ghost predicate Converged(points: seq<Point>, c: Clustering)
  {
    && c.assignment == Assign(points, c.centroids)
    && Step(points, c.centroids, c.iteration) == Success(c.centroids)
  }

  /** The k-means loop: the loop over `Step`, reporting the final assignment
      with the final centroids. */
  function Run(points: seq<Point>, cs: seq<Point>, iteration: nat, fuel: nat): (r: Result<Clustering>)
    ensures r.Success? ==>
              && |r.value.centroids| == |cs|
              && Converged(points, r.value)
              && iteration <= r.value.iteration < iteration + fuel
    ensures r.Success? ==> Distinct(r.value.centroids) && forall j :: 0 <= j < |cs| ==>
              var g := Group(points, r.value.assignment, r.value.centroids[j]);
              |g| > 0 && r.value.centroids[j] == Mean(g)
    ensures r.Failure? ==>
              || (r.error.EmptyGroup? && iteration <= r.error.iteration < iteration + fuel)
              || r.error == OutOfFuel(iteration + fuel)
    ensures r.Failure? && r.error.EmptyGroup? && r.error.iteration == iteration ==>
              Step(points, cs, iteration).Failure?
    ensures r.Failure? ==>
              || r.error == OutOfFuel(iteration + fuel)
              || exists t: nat :: t < fuel && FailsAt(StepOf(points), cs, iteration, t, r.error)
    ensures forall t: nat, e: KMeansError ::
              && t < fuel
              && FailsAt(StepOf(points), cs, iteration, t, e)
              && (forall s: nat :: s < t ==> !FixedAt(StepOf(points), cs, iteration, s))
              ==> r == Failure(e)
  {
    LoopReportsFirstFailure(StepOf(points), cs, iteration, fuel);
    match Loop(StepOf(points), cs, iteration, fuel)
    case Failure(e) =>
      RunFailure(points, cs, iteration, fuel, e);
      LoopFailure(StepOf(points), cs, iteration, fuel, e);
      Failure(e)
    case Success((c, n)) =>
      RunSuccess(points, cs, iteration, fuel, c, n);
      Success(Clustering(c, Assign(points, c), n))
  }

  /** What a converged loop over `Step` returns: as many centroids as it
      started with, a fixed point, each the mean of its own group. */
  lemma RunSuccess(points: seq<Point>, cs: seq<Point>, iteration: nat, fuel: nat, c: seq<Point>, n: nat)
    requires Loop(StepOf(points), cs, iteration, fuel) == Success((c, n))
    ensures |c| == |cs| && Step(points, c, n) == Success(c) && iteration <= n < iteration + fuel
    ensures Distinct(c) && forall j :: 0 <= j < |c| ==>
              var g := Group(points, Assign(points, c), c[j]);
              |g| > 0 && c[j] == Mean(g)
  {
    StepKeepsLength(points);
    LoopKeepsLength(StepOf(points), cs, iteration, fuel);
    assert StepOf(points)(c, n) == Step(points, c, n);
    StepNeedsDistinct(points, c, n);
    DistinctOwnGroups(points, Assign(points, c), c);
  }

  /** How a loop over `Step` fails: an empty group in an iteration that ran,
      or no fuel left. */
  lemma RunFailure(points: seq<Point>, cs: seq<Point>, iteration: nat, fuel: nat, e: KMeansError)
    requires Loop(StepOf(points), cs, iteration, fuel) == Failure(e)
    ensures || (e.EmptyGroup? && iteration <= e.iteration < iteration + fuel)
            || e == OutOfFuel(iteration + fuel)
    ensures e.EmptyGroup? && e.iteration == iteration ==> Step(points, cs, iteration).Failure?
  {
    StepFailsInItsIteration(points);
    LoopFailsInAnIteration(StepOf(points), cs, iteration, fuel);
    assert StepOf(points)(cs, iteration) == Step(points, cs, iteration);
  }

  /** Running from a fixed point stops after its first iteration, with the
      centroids unchanged. */
  lemma RunFromFixedPoint(points: seq<Point>, cs: seq<Point>, iteration: nat, fuel: nat)
    requires fuel > 0
    requires Step(points, cs, iteration) == Success(cs)
    ensures Run(points, cs, iteration, fuel) == Success(Clustering(cs, Assign(points, cs), iteration))
  {
    assert StepOf(points)(cs, iteration) == Step(points, cs, iteration);
    assert Loop(StepOf(points), cs, iteration, fuel) == Success((cs, iteration));
  }

  // ---------------------------------------------------------------------
  // The loop as a trajectory

  /** The centroids after `t` iterations of `step` from `cs`, numbered from
      `iteration` on, or nothing when one of those iterations fails. */
  function Iterate(step: (seq<Point>, nat) -> Result<seq<Point>>, cs: seq<Point>, iteration: nat, t: nat)
    : Option<seq<Point>>
    decreases t
  {
    if t == 0 then Some(cs)
    else
      match step(cs, iteration)
      case Failure(_) => None
      case Success(ncs) => Iterate(step, ncs, iteration + 1, t - 1)
  }

  /** The `t`-th iterate exists and the iteration after it leaves it
      unchanged. */
  ghost predicate FixedAt(step: (seq<Point>, nat) -> Result<seq<Point>>, cs: seq<Point>, iteration: nat, t: nat)
  {
    && Iterate(step, cs, iteration, t).Some?
    && step(Iterate(step, cs, iteration, t).value, iteration + t) == Success(Iterate(step, cs, iteration, t).value)
  }

  /** The `t`-th iterate is the first fixed point on the trajectory. */
  ghost predicate FirstFixedAt(step: (seq<Point>, nat) -> Result<seq<Point>>, cs: seq<Point>, iteration: nat, t: nat)
  {
    FixedAt(step, cs, iteration, t) && forall s: nat :: s < t ==> !FixedAt(step, cs, iteration, s)
  }

  /** The `t`-th iterate exists and the iteration after it fails with `e`. */
  ghost predicate FailsAt(step: (seq<Point>, nat) -> Result<seq<Point>>, cs: seq<Point>, iteration: nat, t: nat,
                          e: KMeansError)
  {
    && Iterate(step, cs, iteration, t).Some?
    && step(Iterate(step, cs, iteration, t).value, iteration + t) == Failure(e)
  }

  /** The loop succeeds exactly when the trajectory reaches a fixed point
      within the fuel, and then it returns the first one, with the number of
      the iteration that reached it. */
  lemma {:induction false} LoopStopsAtFirstFixedPoint(step: (seq<Point>, nat) -> Result<seq<Point>>,
                                                      cs: seq<Point>, iteration: nat, fuel: nat)
    decreases fuel
    ensures Loop(step, cs, iteration, fuel).Success? <==>
              exists t: nat :: t < fuel && FirstFixedAt(step, cs, iteration, t)
    ensures var r := Loop(step, cs, iteration, fuel);
            r.Success? ==>
              && FirstFixedAt(step, cs, iteration, r.value.1 - iteration)
              && Iterate(step, cs, iteration, r.value.1 - iteration) == Some(r.value.0)
  {
    if fuel > 0 {
      match step(cs, iteration)
      case Failure(_) =>
        NothingFixedAfterFailure(step, cs, iteration);
      case Success(ncs) =>
        if |ncs| == |cs| && Movement(cs, ncs) == 0.0 {
          assert FirstFixedAt(step, cs, iteration, 0);
        } else {
          var next := iteration + 1;
          LoopStopsAtFirstFixedPoint(step, ncs, next, fuel - 1);
          ShiftFirstFixed(step, cs, ncs, iteration, next, fuel);
          var r := Loop(step, ncs, next, fuel - 1);
          if r.Success? {
            ShiftFixed(step, cs, ncs, iteration, next, r.value.1 - next);
          }
        }
    }
  }

  /** A successful loop returns the `t`-th iterate, the first fixed point,
      found `t` iterations after the start. */
  lemma LoopReturnsFirstFixedPoint(step: (seq<Point>, nat) -> Result<seq<Point>>, cs: seq<Point>, iteration: nat,
                                   fuel: nat, c: seq<Point>, n: nat, t: nat)
    requires Loop(step, cs, iteration, fuel) == Success((c, n)) && n == iteration + t
    ensures t < fuel
    ensures FirstFixedAt(step, cs, iteration, t)
    ensures Iterate(step, cs, iteration, t) == Some(c)
  {
    LoopStopsAtFirstFixedPoint(step, cs, iteration, fuel);
  }

  /** A failing loop either ran out of fuel or passes on the error of an
      iteration that ran. */
  lemma {:induction false} LoopFailure(step: (seq<Point>, nat) -> Result<seq<Point>>,
                                       cs: seq<Point>, iteration: nat, fuel: nat, e: KMeansError)
    requires Loop(step, cs, iteration, fuel) == Failure(e)
    decreases fuel
    ensures || e == OutOfFuel(iteration + fuel)
            || exists t: nat :: t < fuel && FailsAt(step, cs, iteration, t, e)
  {
    if fuel > 0 {
      match step(cs, iteration)
      case Failure(_) =>
        assert FailsAt(step, cs, iteration, 0, e);
      case Success(ncs) =>
        var next := iteration + 1;
        LoopFailure(step, ncs, next, fuel - 1, e);
        if e != OutOfFuel(next + (fuel - 1)) {
          var t: nat :| t < fuel - 1 && FailsAt(step, ncs, next, t, e);
          ShiftFixed(step, cs, ncs, iteration, next, t);
          assert FailsAt(step, cs, iteration, t + 1, e);
        }
    }
  }

  /** Conversely, an iteration that fails within the fuel, with no fixed
      point before it, is the failure the loop reports. */
  lemma {:induction false} LoopReportsFailure(step: (seq<Point>, nat) -> Result<seq<Point>>, cs: seq<Point>,
                                              iteration: nat, fuel: nat, t: nat, e: KMeansError)
    requires t < fuel && FailsAt(step, cs, iteration, t, e)
    requires forall s: nat :: s < t ==> !FixedAt(step, cs, iteration, s)
    decreases t
    ensures Loop(step, cs, iteration, fuel) == Failure(e)
  {
    if t > 0 {
      var ncs := step(cs, iteration).value;
      var next := iteration + 1;
      assert !FixedAt(step, cs, iteration, 0);
      ShiftFixed(step, cs, ncs, iteration, next, t - 1);
      assert iteration + t == next + (t - 1);
      forall s: nat | s < t - 1
        ensures !FixedAt(step, ncs, next, s)
      {
        ShiftFixed(step, cs, ncs, iteration, next, s);
      }
      LoopReportsFailure(step, ncs, next, fuel - 1, t - 1, e);
    }
  }

  /** An iteration keeps the number of centroids. */
  lemma StepKeepsLength(points: seq<Point>)
    ensures forall cs: seq<Point>, iteration: nat :: StepOf(points)(cs, iteration).Success? ==>
              |StepOf(points)(cs, iteration).value| == |cs|
  {
    forall cs: seq<Point>, iteration: nat
      ensures StepOf(points)(cs, iteration).Success? ==> |StepOf(points)(cs, iteration).value| == |cs|
    {
      assert StepOf(points)(cs, iteration) == Step(points, cs, iteration);
    }
  }

  /** A failing iteration reports an empty group in its own iteration. */
  lemma StepFailsInItsIteration(points: seq<Point>)
    ensures forall cs: seq<Point>, iteration: nat :: StepOf(points)(cs, iteration).Failure? ==>
              && StepOf(points)(cs, iteration).error.EmptyGroup?
              && StepOf(points)(cs, iteration).error.iteration == iteration
  {
    forall cs: seq<Point>, iteration: nat
      ensures StepOf(points)(cs, iteration).Failure? ==>
                && StepOf(points)(cs, iteration).error.EmptyGroup?
                && StepOf(points)(cs, iteration).error.iteration == iteration
    {
      assert StepOf(points)(cs, iteration) == Step(points, cs, iteration);
    }
  }

  /** A loop over an iteration that reports an empty group in its own
      iteration fails either for lack of fuel or in one of the iterations it
      ran, and in its first iteration only when that iteration fails. */
  lemma {:induction false} LoopFailsInAnIteration(step: (seq<Point>, nat) -> Result<seq<Point>>, cs: seq<Point>,
                                                  iteration: nat, fuel: nat)
    requires forall x: seq<Point>, i: nat :: step(x, i).Failure? ==>
               step(x, i).error.EmptyGroup? && step(x, i).error.iteration == i
    decreases fuel
    ensures var r := Loop(step, cs, iteration, fuel);
            r.Failure? ==>
              || (r.error.EmptyGroup? && iteration <= r.error.iteration < iteration + fuel)
              || r.error == OutOfFuel(iteration + fuel)
    ensures var r := Loop(step, cs, iteration, fuel);
            r.Failure? && r.error.EmptyGroup? && r.error.iteration == iteration ==> step(cs, iteration).Failure?
  {
    if fuel > 0 {
      match step(cs, iteration)
      case Failure(_) =>
      case Success(ncs) =>
        LoopFailsInAnIteration(step, ncs, iteration + 1, fuel - 1);
    }
  }

  /** A loop over an iteration that keeps the number of centroids returns
      as many centroids as it started from. */
  lemma {:induction false} LoopKeepsLength(step: (seq<Point>, nat) -> Result<seq<Point>>, cs: seq<Point>,
                                           iteration: nat, fuel: nat)
    requires forall x: seq<Point>, i: nat :: step(x, i).Success? ==> |step(x, i).value| == |x|
    decreases fuel
    ensures Loop(step, cs, iteration, fuel).Success? ==> |Loop(step, cs, iteration, fuel).value.0| == |cs|
  {
    if fuel > 0 {
      match step(cs, iteration)
      case Failure(_) =>
      case Success(ncs) =>
        LoopKeepsLength(step, ncs, iteration + 1, fuel - 1);
    }
  }

  /** The k-means loop succeeds exactly when the trajectory from `cs`
      reaches a fixed point within the fuel. */
  lemma RunSucceedsIffFixedPointReached(points: seq<Point>, cs: seq<Point>, iteration: nat, fuel: nat)
    ensures Run(points, cs, iteration, fuel).Success? <==>
              exists t: nat :: t < fuel && FirstFixedAt(StepOf(points), cs, iteration, t)
  {
    LoopStopsAtFirstFixedPoint(StepOf(points), cs, iteration, fuel);
  }

  /** A successful run returns the first fixed point of the trajectory, in
      the iteration that reached it: `t` iterations after the start, where
      no earlier iterate was fixed. */
  lemma RunStopsAtFirstFixedPoint(points: seq<Point>, cs: seq<Point>, iteration: nat, fuel: nat, c: Clustering, t: nat)
    requires Run(points, cs, iteration, fuel) == Success(c) && c.iteration == iteration + t
    ensures t < fuel
    ensures FirstFixedAt(StepOf(points), cs, iteration, t)
    ensures Iterate(StepOf(points), cs, iteration, t) == Some(c.centroids)
  {
    LoopReturnsFirstFixedPoint(StepOf(points), cs, iteration, fuel, c.centroids, c.iteration, t);
  }

  /** The same, for every failing iteration at once. */
  lemma LoopReportsFirstFailure(step: (seq<Point>, nat) -> Result<seq<Point>>, cs: seq<Point>, iteration: nat,
                                fuel: nat)
    ensures forall t: nat, e: KMeansError ::
              && t < fuel
              && FailsAt(step, cs, iteration, t, e)
              && (forall s: nat :: s < t ==> !FixedAt(step, cs, iteration, s))
              ==> Loop(step, cs, iteration, fuel) == Failure(e)
  {
    forall t: nat, e: KMeansError | t < fuel && FailsAt(step, cs, iteration, t, e) &&
                                    (forall s: nat :: s < t ==> !FixedAt(step, cs, iteration, s))
      ensures Loop(step, cs, iteration, fuel) == Failure(e)
    {
      LoopReportsFailure(step, cs, iteration, fuel, t, e);
    }
  }

  /** A run reports the empty group of the first iteration that fails,
      when that iteration is within the fuel and no fixed point comes
      before it. */
  lemma RunReportsFailure(points: seq<Point>, cs: seq<Point>, iteration: nat, fuel: nat, t: nat, e: KMeansError)
    requires t < fuel && FailsAt(StepOf(points), cs, iteration, t, e)
    requires forall s: nat :: s < t ==> !FixedAt(StepOf(points), cs, iteration, s)
    ensures Run(points, cs, iteration, fuel) == Failure(e)
  {
    LoopReportsFailure(StepOf(points), cs, iteration, fuel, t, e);
  }

  lemma NothingFixedAfterFailure(step: (seq<Point>, nat) -> Result<seq<Point>>, cs: seq<Point>, iteration: nat)
    requires step(cs, iteration).Failure?
    ensures forall t: nat :: !FixedAt(step, cs, iteration, t)
  {
    forall t: nat
      ensures !FixedAt(step, cs, iteration, t)
    {
      if t > 0 {
        assert Iterate(step, cs, iteration, t) == None;
      }
    }
  }

  /** After a successful iteration the trajectory continues from its
      result, one iteration later. */
  lemma ShiftFixed(step: (seq<Point>, nat) -> Result<seq<Point>>, cs: seq<Point>, ncs: seq<Point>,
                   iteration: nat, next: nat, t: nat)
    requires step(cs, iteration) == Success(ncs) && next == iteration + 1
    ensures Iterate(step, cs, iteration, t + 1) == Iterate(step, ncs, next, t)
    ensures FixedAt(step, cs, iteration, t + 1) <==> FixedAt(step, ncs, next, t)
  {
    assert iteration + (t + 1) == next + t;
  }

  lemma ShiftFirstFixed(step: (seq<Point>, nat) -> Result<seq<Point>>, cs: seq<Point>, ncs: seq<Point>,
                        iteration: nat, next: nat, fuel: nat)
    requires step(cs, iteration) == Success(ncs) && ncs != cs && fuel > 0 && next == iteration + 1
    ensures (exists t: nat :: t < fuel && FirstFixedAt(step, cs, iteration, t)) <==>
            (exists t: nat :: t < fuel - 1 && FirstFixedAt(step, ncs, next, t))
    ensures forall t: nat :: FirstFixedAt(step, cs, iteration, t + 1) <==> FirstFixedAt(step, ncs, next, t)
  {
    assert !FixedAt(step, cs, iteration, 0);
    forall t: nat
      ensures FirstFixedAt(step, cs, iteration, t + 1) <==> FirstFixedAt(step, ncs, next, t)
    {
      ShiftFirstFixedAt(step, cs, ncs, iteration, next, t);
    }
    if exists t: nat :: t < fuel && FirstFixedAt(step, cs, iteration, t) {
      var t: nat :| t < fuel && FirstFixedAt(step, cs, iteration, t);
      if t > 0 {
        assert FirstFixedAt(step, ncs, next, t - 1);
      }
    }
  }

  lemma ShiftFirstFixedAt(step: (seq<Point>, nat) -> Result<seq<Point>>, cs: seq<Point>, ncs: seq<Point>,
                          iteration: nat, next: nat, t: nat)
    requires step(cs, iteration) == Success(ncs) && ncs != cs && next == iteration + 1
    ensures FirstFixedAt(step, cs, iteration, t + 1) <==> FirstFixedAt(step, ncs, next, t)
  {
    assert !FixedAt(step, cs, iteration, 0);
    forall s: nat | s <= t
      ensures FixedAt(step, cs, iteration, s + 1) <==> FixedAt(step, ncs, next, s)
    {
      ShiftFixed(step, cs, ncs, iteration, next, s);
    }
    if FirstFixedAt(step, ncs, next, t) {
      forall s: nat | s < t + 1
        ensures !FixedAt(step, cs, iteration, s)
      {
        if s > 0 {
          assert !FixedAt(step, ncs, next, s - 1);
        }
      }
    }
    if FirstFixedAt(step, cs, iteration, t + 1) {
      forall s: nat | s < t
        ensures !FixedAt(step, ncs, next, s)
      {
        assert !FixedAt(step, cs, iteration, s + 1);
      }
    }
  }

  // ---------------------------------------------------------------------
  // Facts about particular starting centroids

  /** Whether an iteration succeeds does not depend on its number. */
  lemma StepIterationIrrelevant(points: seq<Point>, cs: seq<Point>, i: nat, i': nat)
    ensures Step(points, cs, i).Success? <==> Step(points, cs, i').Success?
    ensures Step(points, cs, i).Success? ==> Step(points, cs, i) == Step(points, cs, i')
  {
    var r, r' := Step(points, cs, i), Step(points, cs, i');
    if r.Success? && r'.Success? {
      assert r.value == r'.value;
    }
  }

  /** When every centroid is the value of some point, as after either
      seeding, the first iteration succeeds exactly when no centroid value is
      listed twice. */
  lemma SeededStepSucceeds(points: seq<Point>, cs: seq<Point>, iteration: nat)
    requires forall j :: 0 <= j < |cs| ==> cs[j] in points
    ensures Step(points, cs, iteration).Success? <==> Distinct(cs)
  {
    StepNeedsDistinct(points, cs, iteration);
    if Distinct(cs) {
      DistinctOwnGroups(points, Assign(points, cs), cs);
      forall j | 0 <= j < |cs|
        ensures |OwnGroup(points, Assign(points, cs), cs, j)| > 0
      {
        SeededGroupNonEmpty(points, cs, j);
      }
    }
  }

  /** Started from centroids that are point values, the loop fails in its
      first iteration exactly when it runs at all and a centroid value is
      listed twice. */
  lemma SeededRunFailsAtOnceIffRepeated(points: seq<Point>, cs: seq<Point>, fuel: nat)
    requires forall j :: 0 <= j < |cs| ==> cs[j] in points
    ensures var r := Run(points, cs, 0, fuel);
            (r.Failure? && r.error.EmptyGroup? && r.error.iteration == 0) <==> fuel > 0 && !Distinct(cs)
  {
    SeededStepSucceeds(points, cs, 0);
  }

  /** When every point is itself a centroid, each centroid collects only
      copies of itself, so a successful iteration gives it back unchanged. */
  lemma CentroidIsOwnMean(points: seq<Point>, cs: seq<Point>, iteration: nat, j: nat)
    requires j < |cs|
    requires forall i :: 0 <= i < |points| ==> points[i] in cs
    ensures Step(points, cs, iteration).Success? ==> Step(points, cs, iteration).value[j] == cs[j]
  {
    if Step(points, cs, iteration).Success? {
      var g := OwnGroup(points, Assign(points, cs), cs, j);
      GroupHoldsCopies(points, cs, j);
      MeanOfCopies(g, cs[j]);
    }
  }

  lemma GroupHoldsCopies(points: seq<Point>, cs: seq<Point>, j: nat)
    requires j < |cs|
    requires forall i :: 0 <= i < |points| ==> points[i] in cs
    ensures forall k :: 0 <= k < |OwnGroup(points, Assign(points, cs), cs, j)| ==>
              OwnGroup(points, Assign(points, cs), cs, j)[k] == cs[j]
  {
    var a := Assign(points, cs);
    var g := OwnGroup(points, a, cs, j);
    forall k | 0 <= k < |g|
      ensures g[k] == cs[j]
    {
      var i := Members(a, cs[j])[k];
      assert a[i] == Some(points[i]);
    }
  }

  /** When the centroids are exactly the point values, each listed once (as
      with K equal to the number of points and no repeated point), the first
      iteration leaves every centroid in place, so the run converges at
      once. */
  lemma EveryPointACentroid(points: seq<Point>, cs: seq<Point>, iteration: nat)
    requires forall i :: 0 <= i < |points| ==> points[i] in cs
    requires forall j :: 0 <= j < |cs| ==> cs[j] in points
    requires Distinct(cs)
    ensures Step(points, cs, iteration) == Success(cs)
  {
    SeededStepSucceeds(points, cs, iteration);
    var ncs := Step(points, cs, iteration).value;
    forall j | 0 <= j < |cs|
      ensures ncs[j] == cs[j]
    {
      CentroidIsOwnMean(points, cs, iteration, j);
    }
    assert ncs == cs;
  }
}

=== FILE: outcomes.dfy ===
/** Optional values and the ways a clustering run can stop without a result. */
module Outcomes {

  datatype Option<+T> = None | Some(value: T)

  /** The failures of a run.  `SampleSize` is the error the random sampler
      raises when asked for more distinct points than exist (or for a negative
      number); `EmptyGroup` is the division by zero of the mean of a group no
      point was assigned to, with the iteration and the centroid position where
      it happened; `OutOfFuel` stands for a run that had not converged after the
      number of iterations the caller allowed. */
  datatype KMeansError =
    | SampleSize(k: int, n: nat)
    | EmptyGroup(iteration: nat, centroid: nat)
    | OutOfFuel(iterations: nat)

  datatype Result<+T> = Success(value: T) | Failure(error: KMeansError)
}

=== FILE: relabel.dfy ===
/** The update loop exactly as both scripts write it.  Right after computing
    the new centroid of a group, the loop overwrites the `centroid` entry of
    every point in that group with the new centroid, and later groups are
    collected from the overwritten entries.  In the first iteration the
    centroids are tuples and the new centroids lists, which never compare
    equal; from the second iteration on both are lists and compare by value.

    The rest of the model uses `Lloyd.Update`, which takes every group from
    the assignment and identifies centroids by position.  This module shows
    that the two agree in the first iteration for every centroid list, and in
    later iterations whenever no centroid value is listed twice and no new
    mean equals a centroid value further down the list. */
module Relabel {
  import opened Geometry
  import opened Outcomes
  import opened Assignment
  import opened Lloyd

  /** What a point's `centroid` entry holds during the update: nothing, the
      centroid value the assignment gave it, or a new centroid written over
      it by the relabelling loop. */
  datatype Label = Unattached | Attached(value: Point) | Relabelled(value: Point)

  /** How the entries look to the `==` test of iteration `iteration`: a
      relabelled entry is a list, equal to a list centroid of the same value
      but never to a tuple centroid of the first iteration. */
  function View(labels: seq<Label>, iteration: nat): (a: seq<Option<Point>>)
    ensures |a| == |labels|
    ensures forall i :: 0 <= i < |labels| && labels[i].Attached? ==> a[i] == Some(labels[i].value)
    ensures forall i :: 0 <= i < |labels| && labels[i].Unattached? ==> a[i] == None
    ensures forall i :: 0 <= i < |labels| && labels[i].Relabelled? ==>
              a[i] == if iteration == 0 then None else Some(labels[i].value)
  {
    seq(|labels|, i requires 0 <= i < |labels| =>
      match labels[i]
      case Unattached => None
      case Attached(v) => Some(v)
      case Relabelled(v) => if iteration == 0 then None else Some(v))
  }

  /** The entries written by the assignment phase. */
  function Initial(a: seq<Option<Point>>): (labels: seq<Label>)
    ensures |labels| == |a|
    ensures forall it: nat :: View(labels, it) == a
  {
    var labels := seq(|a|, i requires 0 <= i < |a| => if a[i].Some? then Attached(a[i].value) else Unattached);
    assert forall it: nat :: View(labels, it) == a by {
      forall it: nat
        ensures View(labels, it) == a
      {
        var v := View(labels, it);
        assert forall i :: 0 <= i < |a| ==> v[i] == a[i];
      }
    }
    labels
  }

  /** The relabelling loop for centroid value `c` with new centroid `m`:
      every entry that compares equal to `c` now holds `m`, and no other
      entry changes. */
  function Relabel(labels: seq<Label>, c: Point, m: Point, iteration: nat): (r: seq<Label>)
    ensures |r| == |labels|
    ensures forall i :: 0 <= i < |labels| ==>
              r[i] == if View(labels, iteration)[i] == Some(c) then Relabelled(m) else labels[i]
  {
    var a := View(labels, iteration);
    seq(|labels|, i requires 0 <= i < |labels| => if a[i] == Some(c) then Relabelled(m) else labels[i])
  }

  /** The update loop as written, at position `from` of the centroid list,
      with the means `done` of the centroids before it: collect the group of
      the centroid at `from` from the current entries, average it, relabel
      its members, and go on with the next position. */
  function UpdateAsWritten(points: seq<Point>, labels: seq<Label>, cs: seq<Point>, iteration: nat, from: nat,
                           done: seq<Point>): (r: Result<seq<Point>>)
    requires |labels| == |points| && |done| == from <= |cs|
    decreases |cs| - from
    ensures r.Success? ==> |r.value| == |cs| && r.value[..from] == done
    ensures r.Failure? ==> r.error.EmptyGroup? && r.error.iteration == iteration && from <= r.error.centroid < |cs|
  {
    if from == |cs| then Success(done)
    else
      var g := Group(points, View(labels, iteration), cs[from]);
      if |g| == 0 then Failure(EmptyGroup(iteration, from))
      else
        var m := Mean(g);
        var r := UpdateAsWritten(points, Relabel(labels, cs[from], m, iteration), cs, iteration, from + 1, done + [m]);
        assert r.Success? ==> r.value[..from] == r.value[..from + 1][..from];
        r
  }

  /** No centroid value is listed twice, and no group's mean equals a
      centroid value further down the list: the relabelled entries of one
      group can then never be collected by a later centroid. */
  ghost predicate NoMeanCaptured(points: seq<Point>, a: seq<Option<Point>>, cs: seq<Point>)
    requires |a| == |points|
  {
    && Distinct(cs)
    && forall j, k :: 0 <= j < k < |cs| && |Group(points, a, cs[j])| > 0 ==> Mean(Group(points, a, cs[j])) != cs[k]
  }

  /** One iteration as written: assign, then run the relabelling update. */
  function StepAsWritten(points: seq<Point>, cs: seq<Point>, iteration: nat): (r: Result<seq<Point>>)
    ensures r.Success? ==> |r.value| == |cs|
    ensures r.Failure? ==> r.error.EmptyGroup? && r.error.iteration == iteration && r.error.centroid < |cs|
  {
    UpdateAsWritten(points, Initial(Assign(points, cs)), cs, iteration, 0, [])
  }

  /** The iteration as written computes what `Lloyd.Step` computes: in the
      first iteration whatever the centroids, in a later one when no mean is
      captured. */
  lemma StepAgrees(points: seq<Point>, cs: seq<Point>, iteration: nat)
    requires iteration == 0 || NoMeanCaptured(points, Assign(points, cs), cs)
    ensures StepAsWritten(points, cs, iteration) == Step(points, cs, iteration)
  {
    var a := Assign(points, cs);
    AsWrittenMeetsSpec(points, Initial(a), a, cs, iteration, 0, []);
    assert Step(points, cs, iteration) == Update(points, a, cs, iteration);
    UpdateSpecUnique(points, a, cs, iteration, StepAsWritten(points, cs, iteration), Step(points, cs, iteration));
  }

  /** In particular the first iteration as written always agrees. */
  lemma FirstIterationAgrees(points: seq<Point>, cs: seq<Point>)
    ensures StepAsWritten(points, cs, 0) == Step(points, cs, 0)
  {
    StepAgrees(points, cs, 0);
  }

  /** The groups still to be collected, from position `from` on: a value
      already handled collects nothing, any other value its group under the
      assignment `a`. */
  ghost predicate Pending(points: seq<Point>, labels: seq<Label>, a: seq<Option<Point>>, cs: seq<Point>,
                          iteration: nat, from: nat)
    requires |labels| == |points| == |a| && from <= |cs|
  {
    forall j :: from <= j < |cs| ==>
      Group(points, View(labels, iteration), cs[j]) == if cs[j] in cs[..from] then [] else Group(points, a, cs[j])
  }

  /** The means computed so far are those `Lloyd.Update` computes. */
  ghost predicate Done(points: seq<Point>, a: seq<Option<Point>>, cs: seq<Point>, done: seq<Point>)
    requires |a| == |points| && |done| <= |cs|
  {
    forall k :: 0 <= k < |done| ==> |OwnGroup(points, a, cs, k)| > 0 && done[k] == Mean(OwnGroup(points, a, cs, k))
  }

  /** The update as written meets the specification of `Lloyd.Update`, from
      any position at which the pending groups and the means computed so far
      are as that update has them. */
  lemma {:induction false} AsWrittenMeetsSpec(points: seq<Point>, labels: seq<Label>, a: seq<Option<Point>>,
                                              cs: seq<Point>, iteration: nat, from: nat, done: seq<Point>)
    requires |labels| == |points| == |a| && |done| == from <= |cs|
    requires iteration == 0 || NoMeanCaptured(points, a, cs)
    requires Pending(points, labels, a, cs, iteration, from) && Done(points, a, cs, done)
    ensures UpdateSpec(points, a, cs, iteration, UpdateAsWritten(points, labels, cs, iteration, from, done))
    decreases |cs| - from
  {
    if from < |cs| {
      var g := Group(points, View(labels, iteration), cs[from]);
      assert g == OwnGroup(points, a, cs, from);
      if |g| > 0 {
        var m := Mean(g);
        var labels' := Relabel(labels, cs[from], m, iteration);
        PendingAfterRelabel(points, labels, a, cs, iteration, from, m);
        DoneExtends(points, a, cs, done, m);
        AsWrittenMeetsSpec(points, labels', a, cs, iteration, from + 1, done + [m]);
      }
    }
  }

  lemma DoneExtends(points: seq<Point>, a: seq<Option<Point>>, cs: seq<Point>, done: seq<Point>, m: Point)
    requires |a| == |points| && |done| < |cs|
    requires Done(points, a, cs, done)
    requires |OwnGroup(points, a, cs, |done|)| > 0 && m == Mean(OwnGroup(points, a, cs, |done|))
    ensures Done(points, a, cs, done + [m])
  {
    var done' := done + [m];
    forall k | 0 <= k < |done'|
      ensures |OwnGroup(points, a, cs, k)| > 0 && done'[k] == Mean(OwnGroup(points, a, cs, k))
    {
      if k < |done| {
        assert done'[k] == done[k];
      }
    }
  }

  /** Relabelling the group of the centroid at `from` keeps the pending
      groups as they should be for the next position. */
  lemma PendingAfterRelabel(points: seq<Point>, labels: seq<Label>, a: seq<Option<Point>>, cs: seq<Point>,
                            iteration: nat, from: nat, m: Point)
    requires |labels| == |points| == |a| && from < |cs|
    requires iteration == 0 || NoMeanCaptured(points, a, cs)
    requires Pending(points, labels, a, cs, iteration, from)
    requires |Group(points, View(labels, iteration), cs[from])| > 0
    requires m == Mean(Group(points, View(labels, iteration), cs[from]))
    ensures Pending(points, Relabel(labels, cs[from], m, iteration), a, cs, iteration, from + 1)
  {
    var c := cs[from];
    var labels' := Relabel(labels, c, m, iteration);
    assert cs[..from + 1] == cs[..from] + [c];
    forall j | from + 1 <= j < |cs|
      ensures Group(points, View(labels', iteration), cs[j]) ==
                if cs[j] in cs[..from + 1] then [] else Group(points, a, cs[j])
    {
      if cs[j] == c {
        assert iteration == 0 by {
          assert cs[from] == cs[j];
        }
        RelabelEmptiesGroup(points, labels, c, m);
      } else {
        if iteration > 0 {
          assert cs[..from][..from] == cs[..from];
          assert c !in cs[..from] by {
            assert forall l :: 0 <= l < from ==> cs[..from][l] == cs[l] != cs[from];
          }
          assert m != cs[j];
        }
        RelabelKeepsOtherGroups(points, labels, c, m, cs[j], iteration);
      }
    }
  }

  /** In the first iteration, relabelling the members of `c` leaves no entry
      that compares equal to `c`. */
  lemma RelabelEmptiesGroup(points: seq<Point>, labels: seq<Label>, c: Point, m: Point)
    requires |labels| == |points|
    ensures Group(points, View(Relabel(labels, c, m, 0), 0), c) == []
  {
    var v := View(Relabel(labels, c, m, 0), 0);
    assert forall i :: 0 <= i < |v| ==> v[i] != Some(c);
    NoMembers(v, c);
  }

  /** Relabelling the members of `c` with `m` leaves the group of any other
      value `c'` alone, provided the relabelled entries cannot compare equal
      to `c'`: in the first iteration they never do, later only when `m` is
      `c'`. */
  lemma RelabelKeepsOtherGroups(points: seq<Point>, labels: seq<Label>, c: Point, m: Point, c': Point, iteration: nat)
    requires |labels| == |points| && c' != c
    requires iteration > 0 ==> m != c'
    ensures Group(points, View(Relabel(labels, c, m, iteration), iteration), c') == Group(points, View(labels, iteration), c')
  {
    var a, a' := View(labels, iteration), View(Relabel(labels, c, m, iteration), iteration);
    forall i | 0 <= i < |a|
      ensures a[i] == Some(c') <==> a'[i] == Some(c')
    {
    }
    GroupDependsOnMatches(points, a, a', c');
  }

  /** A group depends only on which entries equal its centroid value. */
  lemma {:induction false} GroupDependsOnMatches(points: seq<Point>, a: seq<Option<Point>>, a': seq<Option<Point>>, c: Point)
    requires |a| == |a'| == |points|
    requires forall i :: 0 <= i < |a| ==> (a[i] == Some(c) <==> a'[i] == Some(c))
    ensures Members(a, c) == Members(a', c)
    ensures Group(points, a, c) == Group(points, a', c)
  {
    if |a| > 0 {
      var init, init' := a[..|a| - 1], a'[..|a'| - 1];
      assert forall i :: 0 <= i < |init| ==> init[i] == a[i] && init'[i] == a'[i];
      GroupDependsOnMatches(points[..|points| - 1], init, init', c);
    }
  }

  /** With no entry equal to `c`, `c` has no members. */
  lemma {:induction false} NoMembers(a: seq<Option<Point>>, c: Point)
    requires forall i :: 0 <= i < |a| ==> a[i] != Some(c)
    ensures Members(a, c) == []
  {
    if |a| > 0 {
      var init := a[..|a| - 1];
      assert forall i :: 0 <= i < |init| ==> init[i] == a[i];
      NoMembers(init, c);
    }
  }

  /** Where the agreement stops: in a later iteration a centroid value listed
      twice whose mean stays put keeps its group as written, because the
      relabelled entries compare equal to it again, while the model, which
      identifies centroids by position, finds the second copy's group empty.
      Here every point is the value `c`. */
  lemma LaterRepeatDiverges(points: seq<Point>, c: Point)
    requires |points| > 0 && forall i :: 0 <= i < |points| ==> points[i] == c
    ensures StepAsWritten(points, [c, c], 1) == Success([c, c])
    ensures Step(points, [c, c], 1).Failure?
  {
    RepeatKeptAsWritten(points, c);
    StepNeedsDistinct(points, [c, c], 1);
    assert [c, c][0] == [c, c][1];
  }

  /** The as-written half of `LaterRepeatDiverges`. */
  lemma RepeatKeptAsWritten(points: seq<Point>, c: Point)
    requires |points| > 0 && forall i :: 0 <= i < |points| ==> points[i] == c
    ensures StepAsWritten(points, [c, c], 1) == Success([c, c])
  {
    var cs := [c, c];
    var a := Assign(points, cs);
    CopiesAttached(points, c);
    var labels := Initial(a);
    assert View(labels, 1) == a;
    UpdateAsWrittenUnfolds(points, labels, cs, 1, 0, []);
    var labels' := Relabel(labels, c, c, 1);
    GroupDependsOnMatches(points, a, View(labels', 1), c);
    UpdateAsWrittenUnfolds(points, labels', cs, 1, 1, [] + [c]);
    TwoCopies(c);
  }

  /** When every point is `c`, every point is attached to `c` and the group
      of `c` is all the points, with mean `c`. */
  lemma CopiesAttached(points: seq<Point>, c: Point)
    requires |points| > 0 && forall i :: 0 <= i < |points| ==> points[i] == c
    ensures forall i :: 0 <= i < |points| ==> Assign(points, [c, c])[i] == Some(c)
    ensures Group(points, Assign(points, [c, c]), c) == points
    ensures Mean(points) == c
  {
    var cs := [c, c];
    var a := Assign(points, cs);
    forall i | 0 <= i < |points|
      ensures a[i] == Some(c)
    {
      assert points[i] in cs;
    }
    AllMembers(a, c);
    assert Group(points, a, c) == points;
    MeanOfCopies(points, c);
  }

  /** When every entry is `c`, its members are all positions in order. */
  lemma {:induction false} AllMembers(a: seq<Option<Point>>, c: Point)
    requires forall i :: 0 <= i < |a| ==> a[i] == Some(c)
    ensures |Members(a, c)| == |a|
    ensures forall k :: 0 <= k < |a| ==> Members(a, c)[k] == k
  {
    if |a| > 0 {
      var init := a[..|a| - 1];
      assert forall i :: 0 <= i < |init| ==> init[i] == a[i];
      AllMembers(init, c);
    }
  }

  lemma UpdateAsWrittenUnfolds(points: seq<Point>, labels: seq<Label>, cs: seq<Point>, iteration: nat, from: nat,
                               done: seq<Point>)
    requires |labels| == |points| && |done| == from < |cs|
    requires |Group(points, View(labels, iteration), cs[from])| > 0
    ensures var m := Mean(Group(points, View(labels, iteration), cs[from]));
            UpdateAsWritten(points, labels, cs, iteration, from, done) ==
              UpdateAsWritten(points, Relabel(labels, cs[from], m, iteration), cs, iteration, from + 1, done + [m])
  {
  }

  lemma TwoCopies(c: Point)
    ensures [] + [c] + [c] == [c, c]
  {
  }
}

=== FILE: seeding.dfy ===
/** The two ways of choosing the initial centroids: uniform sampling of K
    distinct points (k-means.py) and k-means++ seeding, which starts from a
    given point and draws each further centroid with probability proportional
    to the point's distance from the centroids chosen so far (k-means++.py).
    The random numbers are inputs: the positions the sampler returns, and the
    values in [0, 1) the generator returns for the weighted draws. */
module Seeding {
  import opened Geometry
  import opened Outcomes

  // ---------------------------------------------------------------------
  // Uniform seeding

  /** `picks` is a possible outcome of drawing `k` of the positions
      `0 .. n-1` without replacement. */
  ghost predicate IsSample(picks: seq<nat>, n: nat, k: nat)
  {
    && |picks| == k
    && (forall t :: 0 <= t < k ==> picks[t] < n)
    && (forall s, t :: 0 <= s < t < k ==> picks[s] != picks[t])
  }

  /** K initial centroids sampled uniformly: the values at K distinct
      positions of the point list.  The sampler refuses a sample size that is
      negative or larger than the population. */
  function UniformSeed(points: seq<Point>, k: int, picks: seq<nat>): (r: Result<seq<Point>>)
    requires 0 <= k <= |points| ==> IsSample(picks, |points|, k)
    ensures r.Failure? <==> k < 0 || k > |points|
    ensures r.Failure? ==> r.error == SampleSize(k, |points|)
    ensures r.Success? ==> |r.value| == k
    ensures r.Success? ==> forall t :: 0 <= t < k ==> r.value[t] == points[picks[t]]
    ensures r.Success? ==> forall t :: 0 <= t < k ==> r.value[t] in points
  {
    if k < 0 || k > |points| then Failure(SampleSize(k, |points|))
    else Success(seq(k, t requires 0 <= t < k => points[picks[t]]))
  }

  /** A sample of every position covers every position: K distinct picks
      below K leave none out. */
  lemma FullSampleCoversAll(picks: seq<nat>, n: nat)
    requires IsSample(picks, n, n)
    ensures forall i :: 0 <= i < n ==> i in picks
  {
    var picked, range := Elements(picks), Below(n);
    DistinctElements(picks);
    assert picked <= range;
    assert range * picked == picked;
    assert |range - picked| + |range * picked| == |range|;
    assert range - picked == {};
    forall i | 0 <= i < n
      ensures i in picks
    {
      assert i in range;
    }
  }

  function Elements(picks: seq<nat>): set<nat>
  {
    set x | x in picks
  }

  lemma {:induction false} DistinctElements(picks: seq<nat>)
    requires forall s, t :: 0 <= s < t < |picks| ==> picks[s] != picks[t]
    ensures |Elements(picks)| == |picks|
  {
    if |picks| > 0 {
      var init, last := picks[..|picks| - 1], picks[|picks| - 1];
      assert picks == init + [last];
      DistinctElements(init);
      assert Elements(picks) == Elements(init) + {last};
      assert last !in Elements(init);
    }
  }

  /** The positions below `n`. */
  function Below(n: nat): (s: set<nat>)
    ensures forall i :: i in s <==> 0 <= i < n
    ensures |s| == n
  {
    if n == 0 then {}
    else
      var prev := Below(n - 1);
      assert n - 1 !in prev;
      prev + {n - 1}
  }

  // ---------------------------------------------------------------------
  // The roulette-wheel walk

  /** Cumulative weight of the positions `0 .. j`. */
  function Cum(w: seq<real>, j: nat): real
    requires j < |w|
  {
    Sum(w[..j + 1])
  }

  /** `i` is the first position whose cumulative weight reaches `r`. */
  ghost predicate LeastReaching(w: seq<real>, r: real, i: nat)
  {
    && i < |w|
    && Cum(w, i) >= r
    && forall j :: 0 <= j < i ==> Cum(w, j) < r
  }

  lemma SumOfPrefix(w: seq<real>, i: nat)
    requires i < |w|
    ensures Sum(w[..i + 1]) == Sum(w[..i]) + w[i]
  {
    assert w[..i + 1][..i] == w[..i];
  }

  /** The walk: subtract the weights from `r` in list order and stop at the
      first position where what is left is no longer positive.  It falls off
      the end only when no cumulative weight reaches `r`. */
  method RouletteWalk(weights: seq<real>, r: real) returns (picked: Option<nat>)
    ensures picked.Some? ==> LeastReaching(weights, r, picked.value)
    ensures picked.None? ==> forall j :: 0 <= j < |weights| ==> Cum(weights, j) < r
    ensures NonNegative(weights) && |weights| > 0 && r <= Sum(weights) ==> picked.Some?
    ensures 0.0 < r && picked.Some? ==> weights[picked.value] > 0.0
    ensures NonNegative(weights) && |weights| > 0 && r <= 0.0 ==> picked == Some(0)
  {
    var sample := r;
    var i := 0;
    if |weights| > 0 {
      SumOfPrefix(weights, 0);
      assert weights[..0] == [];
      assert Cum(weights, 0) == weights[0];
    }
    while i < |weights|
      invariant 0 <= i <= |weights|
      invariant sample == r - Sum(weights[..i])
      invariant forall j :: 0 <= j < i ==> Cum(weights, j) < r
    {
      SumOfPrefix(weights, i);
      sample := sample - weights[i];
      if sample <= 0.0 {
        if i > 0 {
          SumOfPrefix(weights, i - 1);
          assert Cum(weights, i - 1) < r;
        }
        return Some(i);
      }
      i := i + 1;
    }
    if |weights| > 0 {
      assert weights[..|weights|] == weights;
      assert Cum(weights, |weights| - 1) < r;
    }
    return None;
  }

  // ---------------------------------------------------------------------
  // k-means++ seeding

  /** How many centroids the seeding adds after the first: one per value of
      `range(K - 1)`, none when K is below 2. */
  function Rounds(k: int): nat
  {
    if k >= 1 then k - 1 else 0
  }

  /** Distances from one point to each centroid, in centroid order
      (`cal_distances`). */
  function Distances(p: Point, cs: seq<Point>, dist: (Point, Point) -> real): (ds: seq<real>)
    ensures |ds| == |cs|
  {
    seq(|cs|, j requires 0 <= j < |cs| => dist(p, cs[j]))
  }

  /** The smallest of a list of distances, found by a scan that replaces the
      best so far only on a strictly smaller value. */
  function ScanMin(ds: seq<real>): (m: real)
    requires |ds| > 0
    ensures forall j :: 0 <= j < |ds| ==> m <= ds[j]
    ensures exists j :: 0 <= j < |ds| && m == ds[j]
  {
    if |ds| == 1 then ds[0]
    else
      var init := ds[..|ds| - 1];
      var best := ScanMin(init);
      assert forall j :: 0 <= j < |init| ==> init[j] == ds[j];
      if ds[|ds| - 1] < best then ds[|ds| - 1] else best
  }

  /** Each point's weight: its distance to the nearest centroid chosen so far. */
  function MinWeights(points: seq<Point>, cs: seq<Point>, dist: (Point, Point) -> real): (w: seq<real>)
    requires |cs| > 0
    ensures |w| == |points|
  {
    seq(|points|, i requires 0 <= i < |points| => ScanMin(Distances(points[i], cs, dist)))
  }

  /** A point's weight is its distance to the nearest centroid: no centroid
      is nearer, and some centroid is exactly that far. */
  lemma WeightIsNearestDistance(points: seq<Point>, cs: seq<Point>, dist: (Point, Point) -> real, i: nat)
    requires |cs| > 0 && i < |points|
    ensures forall j :: 0 <= j < |cs| ==> MinWeights(points, cs, dist)[i] <= dist(points[i], cs[j])
    ensures exists j :: 0 <= j < |cs| && MinWeights(points, cs, dist)[i] == dist(points[i], cs[j])
  {
    var ds := Distances(points[i], cs, dist);
    assert MinWeights(points, cs, dist)[i] == ScanMin(ds);
    assert forall j :: 0 <= j < |cs| ==> ds[j] == dist(points[i], cs[j]);
  }

  /** No weight is negative, and a point weighs nothing exactly when it is
      already a centroid. */
  lemma MinWeightsProperties(points: seq<Point>, cs: seq<Point>, dist: (Point, Point) -> real)
    requires |cs| > 0 && DistanceLike(dist)
    ensures NonNegative(MinWeights(points, cs, dist))
    ensures forall i :: 0 <= i < |points| ==> (MinWeights(points, cs, dist)[i] == 0.0 <==> points[i] in cs)
  {
    var w := MinWeights(points, cs, dist);
    forall i | 0 <= i < |points|
      ensures w[i] >= 0.0 && (w[i] == 0.0 <==> points[i] in cs)
    {
      var ds := Distances(points[i], cs, dist);
      assert w[i] == ScanMin(ds);
      if points[i] in cs {
        var l :| 0 <= l < |cs| && cs[l] == points[i];
        assert ds[l] == 0.0;
      }
    }
  }

  /** Every point is already one of the centroids, so every weight is zero. */
  ghost predicate AllChosen(points: seq<Point>, cs: seq<Point>)
  {
    forall i :: 0 <= i < |points| ==> points[i] in cs
  }

  /** A draw maps the total weight to the walk's starting value.  `k-means++.py`
      multiplies the total by a generator value in [0, 1), so the value lies
      in [0, total], below the total when the total is positive. */
  ghost predicate ValidDraw(draw: real -> real)
  {
    forall t :: t >= 0.0 ==> 0.0 <= draw(t) <= t && (t > 0.0 ==> draw(t) < t)
  }

  /** A draw that never starts the walk at zero when there is weight to walk:
      the generator value was not exactly zero. */
  ghost predicate PositiveDraw(draw: real -> real)
  {
    forall t :: t > 0.0 ==> draw(t) > 0.0
  }

  /** The draw of `k-means++.py` for generator value `u`: `sum * random.random()`. */
  function Scaled(u: real): real -> real
  {
    t => t * u
  }

  lemma ProductInRange(t: real, u: real)
    requires t >= 0.0 && 0.0 <= u < 1.0
    ensures 0.0 <= t * u <= t
    ensures t > 0.0 ==> t * u < t
  {
  }

  lemma ProductPositive(t: real, u: real)
    requires t > 0.0 && u > 0.0
    ensures t * u > 0.0
  {
  }

  /** Scaling by a generator value in [0, 1) is a valid draw, and a positive
      one when the value is not zero. */
  lemma ScaledIsValid(u: real)
    requires 0.0 <= u < 1.0
    ensures ValidDraw(Scaled(u))
    ensures u > 0.0 ==> PositiveDraw(Scaled(u))
  {
    forall t | t >= 0.0
      ensures 0.0 <= Scaled(u)(t) <= t && (t > 0.0 ==> Scaled(u)(t) < t)
    {
      assert Scaled(u)(t) == t * u;
      ProductInRange(t, u);
    }
    if u > 0.0 {
      forall t | t > 0.0
        ensures Scaled(u)(t) > 0.0
      {
        assert Scaled(u)(t) == t * u;
        ProductPositive(t, u);
      }
    }
  }

  /** The point at which the walk stops when k-means++ draws with `draw`
      while the centroids so far are `cs`. */
  ghost predicate Drawn(points: seq<Point>, cs: seq<Point>, dist: (Point, Point) -> real, draw: real -> real, c: Point)
    requires |cs| > 0
  {
    var w := MinWeights(points, cs, dist);
    exists i :: 0 <= i < |points| && LeastReaching(w, draw(Sum(w)), i) && c == points[i]
  }

  /** Some point is not yet a centroid exactly when the total weight is
      positive. */
  lemma TotalPositiveIffNotAllChosen(points: seq<Point>, cs: seq<Point>, dist: (Point, Point) -> real)
    requires |cs| > 0 && DistanceLike(dist)
    ensures NonNegative(MinWeights(points, cs, dist))
    ensures Sum(MinWeights(points, cs, dist)) >= 0.0
    ensures Sum(MinWeights(points, cs, dist)) > 0.0 <==> !AllChosen(points, cs)
  {
    var w := MinWeights(points, cs, dist);
    MinWeightsProperties(points, cs, dist);
    SumZeroIffAllZero(w);
    if !AllChosen(points, cs) {
      var i :| 0 <= i < |points| && points[i] !in cs;
      assert w[i] != 0.0;
    }
  }

  /** The walk never stops at a weightless position when it starts above
      zero. */
  lemma {:induction false} ReachedWeightPositive(w: seq<real>, r: real, i: nat)
    requires LeastReaching(w, r, i) && r > 0.0
    ensures w[i] > 0.0
  {
    SumOfPrefix(w, i);
    if i > 0 {
      SumOfPrefix(w, i - 1);
      assert Cum(w, i - 1) < r;
    } else {
      assert w[..0] == [];
    }
  }

  /** A positive draw picks a point that is not yet a centroid, as long as
      there is one. */
  lemma DrawnIsFresh(points: seq<Point>, cs: seq<Point>, dist: (Point, Point) -> real, draw: real -> real, c: Point)
    requires |cs| > 0 && DistanceLike(dist)
    requires PositiveDraw(draw)
    requires Drawn(points, cs, dist, draw, c)
    requires !AllChosen(points, cs)
    ensures c !in cs
  {
    var w := MinWeights(points, cs, dist);
    TotalPositiveIffNotAllChosen(points, cs, dist);
    MinWeightsProperties(points, cs, dist);
    var i :| 0 <= i < |points| && LeastReaching(w, draw(Sum(w)), i) && c == points[i];
    ReachedWeightPositive(w, draw(Sum(w)), i);
  }

  /** Once every point is a centroid the total weight is zero and the walk
      stops at the first point. */
  lemma DrawnWhenAllChosen(points: seq<Point>, cs: seq<Point>, dist: (Point, Point) -> real, draw: real -> real, c: Point)
    requires |cs| > 0 && DistanceLike(dist)
    requires ValidDraw(draw)
    requires Drawn(points, cs, dist, draw, c)
    requires AllChosen(points, cs)
    ensures c == points[0]
  {
    var w := MinWeights(points, cs, dist);
    TotalPositiveIffNotAllChosen(points, cs, dist);
    SumOfPrefix(w, 0);
    assert w[..0] == [];
    assert Cum(w, 0) >= draw(Sum(w));
    var i :| 0 <= i < |points| && LeastReaching(w, draw(Sum(w)), i) && c == points[i];
    assert i == 0;
  }

  /** One round of k-means++ seeding: weigh every point by its distance to
      the nearest centroid so far, and walk the weights from the value the
      draw gives for their total. */
  method DrawNext(points: seq<Point>, cs: seq<Point>, dist: (Point, Point) -> real, draw: real -> real) returns (c: Point)
    requires |cs| > 0 && |points| > 0 && DistanceLike(dist)
    requires ValidDraw(draw)
    ensures c in points
    ensures Drawn(points, cs, dist, draw, c)
  {
    var w := MinWeights(points, cs, dist);
    TotalPositiveIffNotAllChosen(points, cs, dist);
    var target := draw(Sum(w));
    var picked := RouletteWalk(w, target);
    assert picked.Some?;
    c := points[picked.value];
  }

  lemma PrefixOfAppend(cs: seq<Point>, c: Point, t: nat)
    requires t <= |cs|
    ensures (cs + [c])[..t] == cs[..t]
  {
  }

  /** k-means++ seeding: the first centroid is the point at position `d`;
      each further one is drawn by `DrawNext` with the next draw. */
  method SeedPlusPlus(points: seq<Point>, d: nat, k: int, dist: (Point, Point) -> real, draws: seq<real -> real>) returns (cs: seq<Point>)
    requires d < |points| && DistanceLike(dist)
    requires |draws| == Rounds(k)
    requires forall t :: 0 <= t < |draws| ==> ValidDraw(draws[t])
    ensures |cs| == 1 + Rounds(k)
    ensures cs[0] == points[d]
    ensures forall t :: 0 <= t < |cs| ==> cs[t] in points
    ensures DrawnRounds(points, dist, draws, cs)
  {
    cs := [points[d]];
    var round := 0;
    while round < Rounds(k)
      invariant 0 <= round <= Rounds(k)
      invariant |cs| == round + 1
      invariant cs[0] == points[d]
      invariant forall t :: 0 <= t < |cs| ==> cs[t] in points
      invariant DrawnRounds(points, dist, draws, cs)
    {
      cs := SeedRound(points, dist, draws, cs, round);
      round := round + 1;
    }
  }

  /** Round `round` of the seeding loop: draw one more centroid. */
  method SeedRound(points: seq<Point>, dist: (Point, Point) -> real, draws: seq<real -> real>, cs: seq<Point>, round: nat) returns (next: seq<Point>)
    requires |points| > 0 && DistanceLike(dist) && |cs| == round + 1 && round < |draws|
    requires ValidDraw(draws[round])
    requires forall t :: 0 <= t < |cs| ==> cs[t] in points
    requires DrawnRounds(points, dist, draws, cs)
    ensures |next| == |cs| + 1 && next[0] == cs[0]
    ensures forall t :: 0 <= t < |next| ==> next[t] in points
    ensures DrawnRounds(points, dist, draws, next)
  {
    var c := DrawNext(points, cs, dist, draws[round]);
    ExtendDrawnRounds(points, dist, draws, cs, round, c);
    next := cs + [c];
    forall t | 0 <= t < |next|
      ensures next[t] in points
    {
      if t < |cs| {
        assert next[t] == cs[t];
      }
    }
  }

  /** Every centroid after the first is the one drawn, with its round's draw,
      from the centroids before it. */
  ghost predicate DrawnRounds(points: seq<Point>, dist: (Point, Point) -> real, draws: seq<real -> real>, cs: seq<Point>)
    requires |cs| <= |draws| + 1
  {
    forall t :: 1 <= t < |cs| ==> Drawn(points, cs[..t], dist, draws[t - 1], cs[t])
  }

  lemma ExtendDrawnRounds(points: seq<Point>, dist: (Point, Point) -> real, draws: seq<real -> real>, cs: seq<Point>, round: nat, c: Point)
    requires |cs| == round + 1 && round < |draws|
    requires DrawnRounds(points, dist, draws, cs)
    requires Drawn(points, cs, dist, draws[round], c)
    ensures DrawnRounds(points, dist, draws, cs + [c])
  {
    var next := cs + [c];
    forall t | 1 <= t < |cs|
      ensures Drawn(points, next[..t], dist, draws[t - 1], next[t])
    {
      PrefixOfAppend(cs, c, t);
      assert next[t] == cs[t];
    }
    assert next[..|cs|] == cs;
  }

  /** With positive draws, every drawn centroid is new as long as some point
      was not yet chosen; once all were, the draw falls on the first point. */
  lemma SeedsFreshWhilePossible(points: seq<Point>, dist: (Point, Point) -> real, draws: seq<real -> real>, cs: seq<Point>)
    requires |points| > 0 && DistanceLike(dist) && |cs| == 1 + |draws|
    requires forall t :: 0 <= t < |draws| ==> ValidDraw(draws[t])
    requires DrawnRounds(points, dist, draws, cs)
    ensures forall t :: 1 <= t < |cs| && PositiveDraw(draws[t - 1]) && !AllChosen(points, cs[..t]) ==>
              cs[t] !in cs[..t]
    ensures forall t :: 1 <= t < |cs| && AllChosen(points, cs[..t]) ==> cs[t] == points[0]
  {
    forall t | 1 <= t < |cs| && PositiveDraw(draws[t - 1]) && !AllChosen(points, cs[..t])
      ensures cs[t] !in cs[..t]
    {
      DrawnIsFresh(points, cs[..t], dist, draws[t - 1], cs[t]);
    }
    forall t | 1 <= t < |cs| && AllChosen(points, cs[..t])
      ensures cs[t] == points[0]
    {
      DrawnWhenAllChosen(points, cs[..t], dist, draws[t - 1], cs[t]);
    }
  }
}
